=== FILE: README.md ===
# Picker option trees for e-weui's time and datetime pickers

`datetimePicker.js` builds the option tree for the cascading picker columns of
two controls:

- The **time picker** lists every hour and minute between a start and an end
  time of day. It uses the two-field recurrence filter `"minute hour"`.
- The **datetime picker** lists every year, month and day between a start and
  an end date. It uses the filter `"day month year"`. Every day node carries
  the same hour/minute subtree.

A filter field is a comma-separated list of terms:

- a number `n`;
- a range `a-b`;
- a step `*/k`, which runs from the field's minimum to its maximum in steps of `k`;
- `*` alone, which stands for the field's whole range.

`parse_cron` expands each field into a sorted list of numbers. The two
enumerators then move a cursor forward through the bounded range:

- A value of a field that is rejected makes the cursor jump past it: to the
  next hour, the first of the next month, or 1 January of the next year.
- An accepted instant is added to the tree by find-or-create at each level.

The model has six modules:

- `JsText`: JavaScript's `split` and `join`, decimal digits, and the unary
  plus on digit strings.
- `Cron`: `parse_cron`. It has a specification by functions and the loops as
  methods proved against it.
- `Tree`: the picker nodes, `findBy`, and path insertion with find-or-create.
  It also defines what it means for a tree to hold a path, to be well formed
  (unique values per level) and to be ascending.
- `TimeMode`: the time picker's bounds and its enumeration loop.
- `Calendar`: the part of the JavaScript `Date` object the date loop uses.
  This covers the day number of a date and the setters `setFullYear`,
  `setMonth` and `setDate` with their rollover into the next month.
- `DateMode`: the datetime picker's bounds, its time-of-day subtree, and its
  enumeration loop.

Each enumeration method is proved to build exactly `InsertAll` of a
specification sequence of paths: the accepted instants in the range, in
cursor order. Lemmas then characterise that tree:

- which paths it holds, in both directions;
- that it has no duplicate values at any level;
- that siblings are in ascending order.

Where the code and the usual description of the picker differ, the model
follows the code:

- The expanded values of a field are sorted but not deduplicated (`"1,1-3"`
  gives `[1, 1, 2, 3]`). The trees are still free of duplicates, because
  the filter lists are only searched with `indexOf`.
- The third field of the date filter is the year, checked against
  1910..2050. It is not a day of the week.
- The date variant never swaps its bounds. A start after the end still runs
  the loop body once, so the start day alone can be listed.

The date loop is modelled with the month jump corrected, as explained
under "## Findings". The jump as written is modelled beside it.

## Model

| member | source | states |
|---|---|---|
| `JsText.JoinSplit` | datetimePicker.js:118 | Joining the pieces of a split on the same separator gives back the original text. |
| `JsText.SplitJoin` | datetimePicker.js:118 | Splitting a join of separator-free pieces gives back the pieces. |
| `JsText.ShowRoundTrip` | datetimePicker.js:118 | The decimal text of a number reads back, under the unary plus, as that number. |
| `Cron.ExpandTerm` | datetimePicker.js:97-116 | The loops over one term give the numbers of its branch, with the branches tried in order: range (`-`), then step (`*/`), then literal. |
| `Cron.CountUp` | datetimePicker.js:99-104 | The `-` loop pushes exactly the numbers from `a` to `b` in order, and nothing when `a > b`. |
| `Cron.CountBy` | datetimePicker.js:105-112 | The step loop pushes exactly `min, min+k, min+2k, ...` up to the maximum. |
| `Cron.FieldExpansions` | datetimePicker.js:95-117 | A field has one expansion per comma-separated term. |
| `Cron.ExpandTerms` | datetimePicker.js:96-117 | The loop over a field's terms gives each term's expansion, and a text that reads back as that expansion: its numbers joined with commas (for a literal term, its number printed in decimal). |
| `Cron.ExpandField` | datetimePicker.js:89-121 | The map callback returns the field's specified values: the term expansions joined with commas, read back as numbers and sorted. |
| `Cron.FieldValuesPermutation` | datetimePicker.js:116-121 | A field's values are sorted and are a permutation of the concatenated term expansions, where an empty expansion counts as a single 0. |
| `Cron.ParseCron` | datetimePicker.js:87-124 | The result holds one list per space-separated field, each equal to that field's specified values. |
| `Cron.CronValuesSorted` | datetimePicker.js:87-124 | The result has one list per space-separated field, and each list is sorted. |
| `Cron.SortAscProps` | datetimePicker.js:119-121 | Sorting gives an ascending permutation of its input. |
| `Cron.SortedPermutationUnique` | datetimePicker.js:119-121 | Any two ascending permutations of the same numbers are equal, so the model's sort is exactly the comparator sort. |
| `Cron.InsertAscProps` | datetimePicker.js:119-121 | Inserting into a sorted list keeps it sorted and adds exactly the one element. |
| `Cron.SortAscOfSorted` | datetimePicker.js:119-121 | Sorting an already sorted list changes nothing. |
| `Cron.IntervalSpec` | datetimePicker.js:101-104 | A range `a-b` counts up from `a` to `b` by one, and is empty when `a > b`. |
| `Cron.IntervalMembers` | datetimePicker.js:101-104 | A number is in the range `a-b` exactly when `a <= x <= b`. |
| `Cron.SteppedSpec` | datetimePicker.js:107-112 | A step term gives `min, min+k, min+2k, ...`: every value is at most the maximum, and the next one would exceed it. |
| `Cron.RoundTrip` | datetimePicker.js:116-118 | For at least one term, joining each term's numbers and then all terms with commas, splitting on commas and reading each piece gives the concatenated numbers, with an empty term's list reading as a single 0. |
| `Cron.FieldValuesMembers` | datetimePicker.js:96-121 | A number is among a field's values exactly when one of the field's terms produces it, or produces nothing when the number is 0. |
| `Cron.FlattenMembers` | datetimePicker.js:116-118 | A number is in the joined-and-reread list exactly when one of the term lists holds it, with an empty term list reading as 0. |
| `Cron.StarField` | datetimePicker.js:91-94 | A `*` field is well formed and expands to the whole range from its constraint's minimum to its maximum. |
| `Cron.AllStars` | datetimePicker.js:87-124 | An expression made only of `*` fields is well formed, and each field expands to its constraint's range. |
| `Cron.DuplicatesKept` | datetimePicker.js:118-121 | `"1,1-3"` in the day field parses to `[1, 1, 2, 3]`: values are sorted but not deduplicated. |
| `Cron.DuplicatesKeptField` | datetimePicker.js:118-121 | The same duplicate-keeping result, for the single field. |
| `Cron.DuplicatesKeptTerms` | datetimePicker.js:95 | `"1,1-3"` splits on commas into the terms `"1"` and `"1-3"`. |
| `Cron.InvertedRange` | datetimePicker.js:99-118 | Any field `a-b` with `a > b` is well formed and its values are `[0]`. |
| `Cron.InvertedRangeReadsZero` | datetimePicker.js:99-118 | An inverted range such as `"5-3"` produces no numbers, and the joined empty text reads back as `[0]`. |
| `Tree.Find` | datetimePicker.js:191-198 | Gives the first position whose value matches, or none when no node has the value. |
| `Tree.FindBy` | datetimePicker.js:191-198 | The search loop returns exactly the first matching position, or none. |
| `Tree.FindOrPush` | datetimePicker.js:218-226 | If a node with the value exists, the list is unchanged and its index is returned. Otherwise the created node is appended and its index is returned. |
| `Tree.InsertOuterLevel` | datetimePicker.js:218-235 | Find-or-create at one level, followed by insertion of the rest of the path into that node's children, is path insertion. |
| `Tree.InsertInnerLevel` | datetimePicker.js:227-235 | Find-or-create at the last level is path insertion of a one-element path. |
| `Tree.ChainPaths` | datetimePicker.js:218-235 | A freshly created chain of nodes holds exactly its own path. |
| `Tree.InsertPaths` | datetimePicker.js:218-235 | After inserting path `p`, the tree holds exactly its old paths plus `p`. |
| `Tree.InsertWellFormed` | datetimePicker.js:218-235 | Insertion keeps values unique at every level and keeps the leaf children. |
| `Tree.InsertAscending` | datetimePicker.js:218-235 | Inserting a path greater than every path already held keeps siblings ascending. |
| `Tree.InsertAllPaths` | datetimePicker.js:204-240 | A tree built from a path sequence holds exactly the old paths plus those in the sequence. |
| `Tree.InsertAllWellFormed` | datetimePicker.js:204-240 | Building a tree from any path sequence gives unique values at every level. |
| `Tree.InsertAllAscending` | datetimePicker.js:204-240 | Building from a strictly increasing path sequence gives ascending siblings. |
| `Tree.InsertAllSnoc` | datetimePicker.js:204-240 | Inserting one more path at the end is one more insertion. |
| `Tree.InsertAllCons` | datetimePicker.js:204-240 | Inserting a path and then the rest of a sequence is inserting the whole sequence. |
| `TimeMode.Bounds` | datetimePicker.js:153-189 | The normalised bounds are the start and end instants, swapped when the start is later, so the first is never after the second. |
| `TimeMode.SwappedBounds` | datetimePicker.js:184-189 | Exchanging the start and end times gives the same bounds. |
| `TimeMode.ClockReading` | datetimePicker.js:171-182 | Setting hour `h` and minute `m` within a day reads back as `h` and `m`. |
| `TimeMode.SkipHour` | datetimePicker.js:209-212 | Jumping from a rejected hour to minute 0 of the next hour loses no accepted minute. |
| `TimeMode.AddMinute` | datetimePicker.js:218-235 | Find-or-create of the hour node and then the minute node inserts the path (hour, minute). |
| `TimeMode.Visit` | datetimePicker.js:205-238 | One pass of the loop body moves the cursor forward and keeps the tree so far plus the minutes still to add equal to the final tree. |
| `TimeMode.MinuteStep` | datetimePicker.js:213-238 | A rejected minute adds nothing; an accepted minute adds its own path before the minutes after it. |
| `TimeMode.Enumerate` | datetimePicker.js:204-240 | The loop builds exactly the tree of accepted minutes from the start to the end instant. |
| `TimeMode.TimePicker` | datetimePicker.js:127-243 | Builds the tree of accepted minutes between the normalised bounds. The tree is well formed, and ascending when the bounds lie within one day. |
| `TimeMode.AcceptedPathsMembers` | datetimePicker.js:204-240 | A path is listed exactly when some instant in range is accepted by both fields and reads as that hour and minute. |
| `TimeMode.TimeTreeHolds` | datetimePicker.js:204-240 | The time tree holds (h, m) exactly when h and m are allowed by the filter and some instant in range reads as h:m. |
| `TimeMode.TimeTreeWellFormed` | datetimePicker.js:218-235 | Hours are unique and each hour's minutes are unique. |
| `TimeMode.TimePathOrder` | datetimePicker.js:204-240 | Within one day, a later instant has a lexicographically greater (hour, minute) path. |
| `TimeMode.AcceptedPathsIncreasing` | datetimePicker.js:204-240 | Within one day, the listed paths strictly increase. |
| `TimeMode.TimeTreeAscending` | datetimePicker.js:204-240 | Within one day, hours and each hour's minutes are in ascending order. |
| `TimeMode.AcceptedPathsSnoc` | datetimePicker.js:204-240 | Extending the range by one minute lists that minute last, if it is accepted. |
| `TimeMode.TimeTreeStep` | datetimePicker.js:204-240 | Extending the range by one minute inserts that minute's path if it is accepted, and otherwise changes nothing. |
| `TimeMode.DefaultOptions` | datetimePicker.js:142-150 | The default filter `"* *"` allows every minute 0..59 and every hour 0..23, and the default bounds are 00:00 to 23:59. |
| `Calendar.DaysIn` | datetimePicker.js:363 | A month has 28 to 31 days, and fewer than 30 exactly when it is February. |
| `Calendar.YearLength` | datetimePicker.js:395 | The day count of 1 January of the next year is this year's plus the length of the year, 365 or 366 by the Gregorian rule. |
| `Calendar.DayIndexRange` | datetimePicker.js:395 | A valid date's day number lies within its month and its year. |
| `Calendar.NormaliseIndex` | datetimePicker.js:354-363 | A day past the end of a month rolls over to the day with the same day count, as the JavaScript `Date` setters do. |
| `Calendar.NextDayIndex` | datetimePicker.js:395 | Setting the day to the next one moves the date exactly one day forward. |
| `Calendar.YearsGrow` | datetimePicker.js:354-356 | A later year starts at least 365 days per year later. |
| `Calendar.DayIndexOrder` | datetimePicker.js:397 | Comparing day numbers is comparing dates by (year, month, day), and equal day numbers mean equal dates. |
| `Calendar.BeforeIndex` | datetimePicker.js:397 | A date before another has a smaller day number. |
| `DateMode.Instant` | datetimePicker.js:303-314 | A bound becomes a valid date with a time of day. A year number means 1 January as a start and 31 December as an end. |
| `DateMode.LastDay` | datetimePicker.js:397 | For every valid date, the cursor is not after the end exactly when its day number is at most the last day. |
| `DateMode.YearSkip` | datetimePicker.js:353-357 | The jump from a rejected year lands on 1 January of the next year. |
| `DateMode.SkipYear` | datetimePicker.js:353-357 | The year jump moves forward and loses no accepted day. |
| `DateMode.MonthSkip` | datetimePicker.js:358-361 | The corrected jump from a rejected month lands on the first of the next month, or on 1 January after December. |
| `DateMode.SkipMonth` | datetimePicker.js:358-361 | The corrected month jump moves forward and loses no accepted day. |
| `DateMode.MonthSkipAsWritten` | datetimePicker.js:358-361 | The jump as written lands on the first of some month. |
| `DateMode.TimeOfDay` | datetimePicker.js:325-341 | The nested hour and minute loops build the complete time-of-day tree for 00:00..23:59. |
| `DateMode.HourMinutes` | datetimePicker.js:333-340 | The minute loop of one hour completes that hour of the time-of-day tree. |
| `DateMode.DayTimeHolds` | datetimePicker.js:325-341 | The time-of-day subtree holds (h, m) exactly when 0 <= h <= 23 and 0 <= m <= 59. |
| `DateMode.AddFullMinute` | datetimePicker.js:334-340 | Appending minute `m` to the last hour extends the time-of-day tree by that minute. |
| `DateMode.PushMinute` | datetimePicker.js:326-340 | Appending a minute to the last hour node equals inserting the path (hour, minute). |
| `DateMode.AddDay` | datetimePicker.js:367-393 | Find-or-create of the year, month and day nodes inserts the path (year, month, day), with the time subtree as the day's children. |
| `DateMode.VisitDay` | datetimePicker.js:348-396 | One pass of the loop body, with the corrected month jump, moves the cursor to a later day and keeps the tree so far plus the days still to add equal to the final tree. |
| `DateMode.Enumerate` | datetimePicker.js:347-397 | The loop, with the corrected month jump and including its first pass when the start is already after the end, builds exactly the tree of accepted days from the start day up to the last day. |
| `DateMode.DatetimePicker` | datetimePicker.js:270-400 | Builds the tree of accepted days between the bounds, each with the full time-of-day subtree. The tree is well formed and ascending at all three levels. |
| `DateMode.AcceptedFromMembers` | datetimePicker.js:347-397 | A path is listed exactly when some valid accepted date between the cursor and the last day has it. |
| `DateMode.DateTreeHolds` | datetimePicker.js:347-397 | The tree holds (y, m, d) exactly when that date exists and is accepted, and is either the start day or lies after it and not past the last day. |
| `DateMode.DateTreeWellFormed` | datetimePicker.js:367-393 | Years, months and days are unique per level, and every day carries the time subtree. |
| `DateMode.BeforePath` | datetimePicker.js:347-397 | A date before another has a lexicographically smaller path. |
| `DateMode.AcceptedFromIncreasing` | datetimePicker.js:347-397 | The listed day paths strictly increase. |
| `DateMode.LaterPath` | datetimePicker.js:395 | Every day listed after the cursor's next day has a greater path than the cursor. |
| `DateMode.DateTreeAscending` | datetimePicker.js:347-397 | Years, months and days appear in ascending order. |
| `DateMode.StartAfterEnd` | datetimePicker.js:347-397 | When the start is after the end, only the start day can be listed, from the one pass of the loop body. |
| `DateMode.YearBounds` | datetimePicker.js:303-314 | With year-number bounds y1..y2, the tree holds exactly the existing accepted dates of years y1 through y2. |
| `DateMode.DefaultFilter` | datetimePicker.js:299 | The default filter `"* * *"` allows days 1..31, months 1..12 and years 1910..2050. |
| `DateMode.PendingAfter` | datetimePicker.js:362-365 | A rejected day adds nothing; an accepted day adds its own path before the days that follow. |
| `DateMode.MonthSkipLosesFebruary` | datetimePicker.js:358-361 | From 31 January 2021 with months `[2]`, the jump as written lands on 1 March and never lists 1 February. The corrected jump lands on 1 February and lists it. |

## Left out

- The picker widget itself (`weui.picker`), option merging with defaults,
  `onChange`/`onConfirm`, the `datePicker` wrapper and the `defaultValue`
  conversions. The trees are what the core computes; the rest is UI plumbing.
- Node labels are a number with its unit (`Tree.Label`), not the formatted
  text such as "5时". The suffix is display only.
- Date strings and the `Date` constructor. A date bound given as a string or
  a `Date` object is a `Moment`: a valid calendar date with a time of day.
  The parsing of the string is not modelled.
- Time zones, daylight saving and the current time (`new Date()`). The
  cursor keeps its time of day as its date moves, and the default bounds
  that depend on today's year are not modelled.
- `TimeMode.TimePicker`: a `Date` object passed as a time bound is not
  modelled. Only numbers, `[hour, minute]` pairs and "h:m" texts whose hour
  and minute are decimal digits are (`TimeMode.ReadableBound`). Texts whose
  hour or minute is some other numeric text (" 9:30", "9 :30", "+9:30",
  "9.5:30", "0x9:30", "1e1:00") are valid times in the code, because
  `setHours` and `setMinutes` convert each piece to a number; they are
  excluded from the model. A text without ':' gives an Invalid Date in the
  code, since its minute is undefined.
- `DateMode.DatetimePicker`: a year bound must be between 1000 and 9999. The
  `YYYY/01/01` string the code builds for other numbers is not a four-digit
  year.
- Non-numeric filter terms, a missing field, or a step term or a `*` field
  in a position that has no constraint (e.g. "* * *" given to the time
  picker, whose third field has none). These give NaN or a TypeError in the code, and the
  model requires well-formed filters (`Cron.WellFormedCron`).
- Terms other than plain decimal digits (e.g. "+5", "5.0", "1e1", "0x1F"),
  which the code reads as numbers through the unary plus and the numeric
  `<=` (so "1-0x3" counts 1..3 and "*/1e1" steps by 10), are excluded by
  `Cron.WellFormedCron`: every literal, range end and step must be decimal
  digits.
- `Cron.ExpandTerms`: a literal term's text is its number printed in
  decimal, not the term as written ("05" becomes "5", "" becomes "0"). Both
  read back as the same number, so no field's values differ.
- A step of 0, which never terminates in the code. The model requires a
  positive step.
- The shared `time` subtree is a value in the model, so aliasing between day
  nodes is not captured. Likewise the children lists are updated by
  rebuilding, not by pushing into a referenced array. Every day's children
  are equal to `DateMode.DayTime()`.
- Numbers are unbounded integers rather than doubles. No value a picker
  realistically receives comes near 2^53, but the model accepts digit
  strings and hours of any size: a filter term or time text beyond 2^53
  reads as a rounded double in the code and exactly in the model.
- `findBy` compares with loose `==`. Every value compared is a number, so it
  is modelled as equality.
- `DateMode.DatetimePicker`, `DateMode.Enumerate`, `DateMode.VisitDay`:
  use the corrected month jump (`DateMode.MonthSkip`), not the code's. When the cursor is on a day of a
  rejected month that the next month does not have, the code skips that
  next month (31 January goes to 1 March, 31 March to 1 May); the model
  does not. `DateMode.MonthSkipAsWritten` models the jump as written.
- `TimeMode.TimeTreeAscending`: holds only when the bounds lie within one
  day. Across midnight the hours wrap and the siblings are no longer in
  ascending order.

## Findings

| source | as written | input that shows it | evidently intended | confidence | as-written member | corrected member |
|---|---|---|---|---|---|---|
| datetimePicker.js:358-361 | A rejected month moves the month on with `setMonth(getMonth() + 1)` while keeping the day, and only then sets the day to 1. When the day is greater than the number of days in the next month (any day after the last day of the next month: 30 or 31 January in a leap year, 29 to 31 January in a common year, 31 March, 31 May, ...), the day overflows that month and the cursor lands a month too far. | start 2021-01-31, end 2021-12-31, filter `"* 2 *"`: 31 January jumps to 1 March, so no day of February 2021 is listed | Jump to the first of the next month (set the day to 1 before moving the month), so no accepted day is skipped | not executed | `DateMode.MonthSkipLosesFebruary` | `DateMode.SkipMonth` |

=== FILE: calendar.dfy ===
/** The proleptic Gregorian calendar of the JavaScript `Date` object, as far
    as the date-mode enumerator uses it: the date part of an instant, the
    day count that orders dates, and the setters `setFullYear`, `setMonth`
    and `setDate`, which accept a day past the end of the month and roll it
    over into the next month. Time zones and daylight saving are not
    modelled: a cursor keeps its time of day while its date moves. */
module Calendar {

  /** A calendar date; `month` is 1-based (`getMonth() + 1`). */
  datatype Date = Date(year: int, month: int, day: int)

  predicate IsLeap(y: int) {
    y % 4 == 0 && (y % 100 != 0 || y % 400 == 0)
  }

  /** The number of days of month `m` of year `y`. */
  function DaysIn(y: int, m: int): (n: int)
    ensures 28 <= n <= 31
    ensures m == 2 <==> n < 30
  {
    if m == 2 then (if IsLeap(y) then 29 else 28)
    else if m == 4 || m == 6 || m == 9 || m == 11 then 30
    else 31
  }

  function DaysInYear(y: int): int {
    if IsLeap(y) then 366 else 365
  }

  /** A date that exists. */
  predicate Valid(d: Date) {
    1 <= d.month <= 12 && 1 <= d.day <= DaysIn(d.year, d.month)
  }

  /** The days from 1 January of year 0 to 1 January of year `y`: 365 a year
      plus one for every leap year before `y`. */
  function DaysBeforeYear(y: int): int {
    365 * y + (y + 3) / 4 - (y + 99) / 100 + (y + 399) / 400
  }

  /** The days of year `y` before the first of month `m` (13 stands for the
      end of the year). */
  function DaysBeforeMonth(y: int, m: int): int
    requires 1 <= m <= 13
  {
    var common :=
      if m == 1 then 0 else if m == 2 then 31 else if m == 3 then 59
      else if m == 4 then 90 else if m == 5 then 120 else if m == 6 then 151
      else if m == 7 then 181 else if m == 8 then 212 else if m == 9 then 243
      else if m == 10 then 273 else if m == 11 then 304 else if m == 12 then 334
      else 365;
    common + (if m > 2 && IsLeap(y) then 1 else 0)
  }

  /** The day number of a date, counted from 1 January of year 0: the order
      in which the cursor visits dates. */
  function DayIndex(d: Date): int
    requires 1 <= d.month <= 12
  {
    DaysBeforeYear(d.year) + DaysBeforeMonth(d.year, d.month) + d.day - 1
  }

  /** Lexicographic order on (year, month, day). */
  predicate Before(a: Date, b: Date) {
    a.year < b.year ||
    (a.year == b.year && (a.month < b.month || (a.month == b.month && a.day < b.day)))
  }

  // ---------------------------------------------------------------------
  // The setters

  /** The date ECMAScript's MakeDay gives for year `y`, month `m` and a day
      `d` that may run up to four days past the end of the month. */
  function Normalise(y: int, m: int, d: int): (r: Date)
    requires 1 <= m <= 12 && 1 <= d <= 32
    ensures Valid(r)
  {
    if d <= DaysIn(y, m) then Date(y, m, d)
    else if m < 12 then Date(y, m + 1, d - DaysIn(y, m))
    else Date(y + 1, 1, d - DaysIn(y, m))
  }

  /** `getMonth()`: the 0-based month. */
  function GetMonth(c: Date): int {
    c.month - 1
  }

  /** `setFullYear(y)`: the same month and day in year `y` (29 February
      rolls over to 1 March in a common year). */
  function SetFullYear(c: Date, y: int): (r: Date)
    requires Valid(c)
    ensures Valid(r)
  {
    Normalise(y, c.month, c.day)
  }

  /** `setMonth(m0)` for a 0-based month up to 12, where 12 is January of
      the next year; the day is kept and may roll over. */
  function SetMonth(c: Date, m0: int): (r: Date)
    requires Valid(c) && 0 <= m0 <= 12
    ensures Valid(r)
  {
    if m0 == 12 then Normalise(c.year + 1, 1, c.day) else Normalise(c.year, m0 + 1, c.day)
  }

  /** `setDate(d)` for a day up to one past the end of the month. */
  function SetDate(c: Date, d: int): (r: Date)
    requires Valid(c) && 1 <= d <= c.day + 1
    ensures Valid(r)
  {
    Normalise(c.year, c.month, d)
  }

  /** `setDate(getDate() + 1)`: the following day. */
  function NextDay(c: Date): (r: Date)
    requires Valid(c)
    ensures Valid(r)
  {
    SetDate(c, c.day + 1)
  }

  // ---------------------------------------------------------------------
  // Day counts

  /** A year has as many days as it says. */
  lemma YearLength(y: int)
    ensures DaysBeforeYear(y + 1) == DaysBeforeYear(y) + DaysInYear(y)
  {
    Crossing4(y);
    Crossing100(y);
    Crossing400(y);
    Multiples(y);
    var a, b, c := (y + 3) / 4, (y + 99) / 100, (y + 399) / 400;
    assert DaysBeforeYear(y) == 365 * y + a - b + c;
    if IsLeap(y) {
      assert DaysBeforeYear(y + 1) == 365 * y + 365 + a + 1 - b - (if y % 100 == 0 then 1 else 0) + c + (if y % 400 == 0 then 1 else 0);
    } else if y % 4 != 0 {
      assert DaysBeforeYear(y + 1) == 365 * y + 365 + a - b + c;
    } else {
      assert DaysBeforeYear(y + 1) == 365 * y + 365 + a + 1 - b - 1 + c;
    }
  }

  /** A multiple of 400 is a multiple of 100, which is a multiple of 4. */
  lemma Multiples(y: int)
    ensures y % 100 == 0 ==> y % 4 == 0
    ensures y % 400 == 0 ==> y % 100 == 0
  {
    var q4, r4 := y / 4, y % 4;
    var q100, r100 := y / 100, y % 100;
    var q400 := y / 400;
    assert y == 4 * q4 + r4 && 0 <= r4 < 4;
    assert y == 100 * q100 + r100 && 0 <= r100 < 100;
    if r100 == 0 {
      assert 4 * (25 * q100 - q4) == r4;
    }
    if y % 400 == 0 {
      assert y == 400 * q400;
      assert 100 * (4 * q400 - q100) == r100;
    }
  }

  // Each of the three counts of leap-year candidates before y grows by one
  // exactly when y itself is a multiple.

  lemma Crossing4(y: int)
    ensures (y + 4) / 4 == (y + 3) / 4 + (if y % 4 == 0 then 1 else 0)
  {
    var q, r := y / 4, y % 4;
    assert y == 4 * q + r;
    assert (y + 4) / 4 == q + 1;
    if r == 0 { assert (y + 3) / 4 == q; } else { assert (y + 3) / 4 == q + 1; }
  }

  lemma Crossing100(y: int)
    ensures (y + 100) / 100 == (y + 99) / 100 + (if y % 100 == 0 then 1 else 0)
  {
    var q, r := y / 100, y % 100;
    assert y == 100 * q + r;
    assert (y + 100) / 100 == q + 1;
    if r == 0 { assert (y + 99) / 100 == q; } else { assert (y + 99) / 100 == q + 1; }
  }

  lemma Crossing400(y: int)
    ensures (y + 400) / 400 == (y + 399) / 400 + (if y % 400 == 0 then 1 else 0)
  {
    var q, r := y / 400, y % 400;
    assert y == 400 * q + r;
    assert (y + 400) / 400 == q + 1;
    if r == 0 { assert (y + 399) / 400 == q; } else { assert (y + 399) / 400 == q + 1; }
  }

  /** Consecutive months follow each other without a gap. */
  lemma MonthLength(y: int, m: int)
    requires 1 <= m <= 12
    ensures DaysBeforeMonth(y, m + 1) == DaysBeforeMonth(y, m) + DaysIn(y, m)
  {
  }

  /** The month table adds up to the year. */
  lemma MonthsMakeYear(y: int)
    ensures DaysBeforeMonth(y, 13) == DaysInYear(y)
  {
  }

  /** The day number of a valid date lies within its year and month. */
  lemma DayIndexRange(d: Date)
    requires Valid(d)
    ensures DaysBeforeYear(d.year) + DaysBeforeMonth(d.year, d.month) <= DayIndex(d)
    ensures DayIndex(d) < DaysBeforeYear(d.year) + DaysBeforeMonth(d.year, d.month + 1)
    ensures DayIndex(d) < DaysBeforeYear(d.year + 1)
  {
    MonthLength(d.year, d.month);
    YearLength(d.year);
    MonthsMakeYear(d.year);
    assert DaysBeforeMonth(d.year, d.month + 1) <= DaysBeforeMonth(d.year, 13);
  }

  /** Normalising is the day-count arithmetic of MakeDay: the day number of
      the result is that of the first of the month plus d - 1. */
  lemma NormaliseIndex(y: int, m: int, d: int)
    requires 1 <= m <= 12 && 1 <= d <= 32
    ensures DayIndex(Normalise(y, m, d)) == DaysBeforeYear(y) + DaysBeforeMonth(y, m) + d - 1
  {
    MonthLength(y, m);
    if d > DaysIn(y, m) && m == 12 {
      YearLength(y);
      MonthsMakeYear(y);
    }
  }

  /** The following day is one day later. */
  lemma NextDayIndex(c: Date)
    requires Valid(c)
    ensures DayIndex(NextDay(c)) == DayIndex(c) + 1
  {
    NormaliseIndex(c.year, c.month, c.day + 1);
  }

  /** The day after the last of a month is the first of the next month (of
      January of the next year after December); otherwise the month stays. */
  lemma NextDayShape(c: Date)
    requires Valid(c)
    ensures c.day < DaysIn(c.year, c.month) ==> NextDay(c) == Date(c.year, c.month, c.day + 1)
    ensures c.day == DaysIn(c.year, c.month) && c.month < 12 ==> NextDay(c) == Date(c.year, c.month + 1, 1)
    ensures c.day == DaysIn(c.year, c.month) && c.month == 12 ==> NextDay(c) == Date(c.year + 1, 1, 1)
  {
  }

  /** Days before a later year are at least 365 a year more. */
  lemma {:induction false} YearsGrow(y: int, z: int)
    requires y <= z
    ensures DaysBeforeYear(y) + 365 * (z - y) <= DaysBeforeYear(z)
    decreases z - y
  {
    if y < z {
      YearsGrow(y, z - 1);
      YearLength(z - 1);
    }
  }

  /** Days before a later month of the same year are more. */
  lemma MonthsGrow(y: int, m: int, n: int)
    requires 1 <= m < n <= 13
    ensures DaysBeforeMonth(y, m) + 28 * (n - m) <= DaysBeforeMonth(y, n)
  {
  }

  /** Day numbers order dates exactly as (year, month, day) does; in
      particular two valid dates with the same day number are equal. */
  lemma DayIndexOrder(a: Date, b: Date)
    requires Valid(a) && Valid(b)
    ensures DayIndex(a) < DayIndex(b) <==> Before(a, b)
    ensures DayIndex(a) == DayIndex(b) <==> a == b
  {
    if Before(a, b) {
      BeforeIndex(a, b);
    } else if Before(b, a) {
      BeforeIndex(b, a);
    }
  }

  /** One direction of DayIndexOrder. */
  lemma BeforeIndex(a: Date, b: Date)
    requires Valid(a) && Valid(b) && Before(a, b)
    ensures DayIndex(a) < DayIndex(b)
  {
    if a.year < b.year {
      DayIndexRange(a);
      YearsGrow(a.year + 1, b.year);
      YearStart(b);
    } else if a.month < b.month {
      DayIndexRange(a);
      if a.month + 1 < b.month {
        MonthsGrow(a.year, a.month + 1, b.month);
      }
      DayIndexRange(b);
    }
  }

  /** A valid date's day number is at least that of 1 January of its year. */
  lemma YearStart(d: Date)
    requires Valid(d)
    ensures DaysBeforeYear(d.year) <= DayIndex(d)
  {
    if d.month > 1 {
      MonthsGrow(d.year, 1, d.month);
    }
  }
}

=== FILE: cron.dfy ===
// parse_cron: the expander of the picker's cron-like filter.
//
// The expression is split on spaces into fields; field n is split on
// commas into terms, and each term is expanded against the field's
// constraint [min, max]:
//   `*` (the whole field)  every integer in [min, max], by rewriting the
//                          field to the text "min-max"
//   `a-b`                  a, a+1, ..., b (nothing when a > b)
//   `*/n`                  min, min+n, min+2n, ... up to max
//   anything else          the number it reads as
// Each term's numbers are joined into a text (a literal term is kept as
// written; here it is its number printed in decimal, which reads back the
// same), the texts are joined and
// split again on commas and read back as numbers, so a term that expanded
// to nothing leaves one empty piece behind, which reads as 0. The field's
// numbers are finally sorted ascending; duplicates are kept.
module Cron {
  import opened JsText

  /** A field's constraint [min, max]. */
  type Constraint = (nat, nat)

  /** `t_constraints`: minute [0, 59] and hour [0, 23], for the time picker. */
  const TimeConstraints: seq<Constraint> := [(0, 59), (0, 23)]

  /** `constraints`: day [1, 31], month [1, 12] and year [1910, 2050], for the
      date picker (the third field is the year). */
  const DateConstraints: seq<Constraint> := [(1, 31), (1, 12), (1910, 2050)]

  // The term contains a star immediately followed by a slash.
  predicate HasStepMarker(t: string) {
    exists i :: 0 <= i < |t| - 1 && t[i] == '*' && t[i + 1] == '/'
  }

  // The step of a `*/n` term: everything after the first `/`.
  function StepText(t: string): string
    requires HasStepMarker(t)
  {
    var i :| 0 <= i < |t| - 1 && t[i] == '*' && t[i + 1] == '/';
    assert t[i + 1] == '/';
    t[FirstIndex(t, '/') + 1..]
  }

  /** The classes of term that parse_cron tells apart. */
  datatype Term = Span(from: nat, to: nat) | Every(step: nat) | Literal(v: nat)

  /** A term whose every number is written in decimal digits, whose step is
      at least 1, and which only asks for the field's constraint when the
      field has one. Outside this, the source reads NaN, loops forever
      (a step of 0) or throws (no constraint). */
  predicate NumericTerm(t: string, constrained: bool) {
    if '-' in t then
      var se := Split(t, '-');
      IsDigits(se[0]) && IsDigits(se[1])
    else if HasStepMarker(t) then
      constrained && IsDigits(StepText(t)) && DecimalValue(StepText(t)) > 0
    else IsDigits(t)
  }

  /** Which branch of parse_cron a term takes, with its numbers read. */
  function Classify(t: string, constrained: bool): Term
    requires NumericTerm(t, constrained)
  {
    if '-' in t then
      var se := Split(t, '-');
      Span(DecimalValue(se[0]), DecimalValue(se[1]))
    else if HasStepMarker(t) then Every(DecimalValue(StepText(t)))
    else Literal(DecimalValue(t))
  }

  /** The integers a, a+1, ..., b; empty when a > b. */
  function Interval(a: int, b: int): seq<int> {
    if a > b then [] else seq(b - a + 1, k => a + k)
  }

  /** lo, lo+step, lo+2*step, ... while at most hi. */
  function Stepped(lo: int, hi: int, step: nat): seq<int>
    requires step > 0
    decreases hi - lo
  {
    if lo > hi then [] else [lo] + Stepped(lo + step, hi, step)
  }

  /** The numbers one term pushes into `range[i]`. */
  function TermValues(term: Term, cs: seq<Constraint>, n: nat): seq<int>
    requires term.Every? ==> n < |cs| && term.step > 0
  {
    match term
    case Span(a, b) => Interval(a, b)
    case Every(step) => Stepped(cs[n].0, cs[n].1, step)
    case Literal(v) => [v]
  }

  /** What a term leaves in the field after the join/split round trip: its
      numbers, or a single 0 when it had none. */
  function Padded(vals: seq<int>): seq<int> {
    if vals == [] then [0] else vals
  }

  /** The field text after `*` is rewritten to "min-max". */
  function FieldText(d: string, cs: seq<Constraint>, n: nat): string
    requires d == "*" ==> n < |cs|
  {
    if d == "*" then Show(cs[n].0) + "-" + Show(cs[n].1) else d
  }

  /** The comma-separated terms of field n. */
  function FieldTerms(d: string, cs: seq<Constraint>, n: nat): (ts: seq<string>)
    requires d == "*" ==> n < |cs|
    ensures |ts| >= 1
  {
    Split(FieldText(d, cs, n), ',')
  }

  /** Field n can be expanded by the model. */
  predicate WellFormedField(d: string, cs: seq<Constraint>, n: nat) {
    (d == "*" ==> n < |cs|) &&
    var ts := FieldTerms(d, cs, n);
    forall i :: 0 <= i < |ts| ==> NumericTerm(ts[i], n < |cs|)
  }

  /** Every field of the expression can be expanded by the model. */
  predicate WellFormedCron(expr: string, cs: seq<Constraint>) {
    var fields := Split(expr, ' ');
    forall n :: 0 <= n < |fields| ==> WellFormedField(fields[n], cs, n)
  }

  /** The numbers term i of a well-formed field expands to. */
  function TermValuesAt(ts: seq<string>, i: nat, cs: seq<Constraint>, n: nat): seq<int>
    requires i < |ts| && NumericTerm(ts[i], n < |cs|)
  {
    TermValues(Classify(ts[i], n < |cs|), cs, n)
  }

  /** The padded term values of a list of terms, concatenated in order. */
  function Flatten(vs: seq<seq<int>>): seq<int>
    decreases |vs|
  {
    if vs == [] then [] else Padded(vs[0]) + Flatten(vs[1..])
  }

  /** The expansion of each term of field n, in order. */
  function FieldExpansions(d: string, cs: seq<Constraint>, n: nat): (vs: seq<seq<int>>)
    requires WellFormedField(d, cs, n)
    ensures |vs| == |FieldTerms(d, cs, n)|
  {
    var ts := FieldTerms(d, cs, n);
    seq(|ts|, i requires 0 <= i < |ts| => TermValuesAt(ts, i, cs, n))
  }

  /** `s` is in non-decreasing order. */
  predicate Sorted(s: seq<int>) {
    forall i, j :: 0 <= i < j < |s| ==> s[i] <= s[j]
  }

  /** Put x into its place in a sorted sequence. */
  function InsertAsc(x: int, s: seq<int>): seq<int>
    decreases |s|
  {
    if s == [] || x <= s[0] then [x] + s else [s[0]] + InsertAsc(x, s[1..])
  }

  /** Array.prototype.sort with a numeric comparator: the ascending
      rearrangement of `s`. */
  function SortAsc(s: seq<int>): seq<int>
    decreases |s|
  {
    if s == [] then [] else InsertAsc(s[0], SortAsc(s[1..]))
  }

  /** What the map callback of parse_cron returns for field n. */
  function FieldValues(d: string, cs: seq<Constraint>, n: nat): seq<int>
    requires WellFormedField(d, cs, n)
  {
    SortAsc(Flatten(FieldExpansions(d, cs, n)))
  }

  /** What parse_cron returns: one array per space-separated field. */
  function CronValues(expr: string, cs: seq<Constraint>): seq<seq<int>>
    requires WellFormedCron(expr, cs)
  {
    var fields := Split(expr, ' ');
    seq(|fields|, n requires 0 <= n < |fields| => FieldValues(fields[n], cs, n))
  }

  // ---------------------------------------------------------------------
  // Sorting

  lemma {:induction false} InsertAscProps(x: int, s: seq<int>)
    requires Sorted(s)
    ensures Sorted(InsertAsc(x, s))
    ensures multiset(InsertAsc(x, s)) == multiset{x} + multiset(s)
    decreases |s|
  {
    if s == [] || x <= s[0] {
      assert InsertAsc(x, s) == [x] + s;
    } else {
      var t := s[1..];
      assert Sorted(t);
      InsertAscProps(x, t);
      var r := InsertAsc(x, t);
      assert InsertAsc(x, s) == [s[0]] + r;
      forall k | 0 <= k < |r| ensures s[0] <= r[k] {
        assert r[k] in multiset{x} + multiset(t);
        assert r[k] == x || r[k] in t;
      }
      ConsSorted(s[0], r);
      assert s == [s[0]] + t;
    }
  }

  lemma ConsSorted(h: int, r: seq<int>)
    requires Sorted(r) && forall k :: 0 <= k < |r| ==> h <= r[k]
    ensures Sorted([h] + r)
  {
  }

  /** The sort gives an ascending permutation of its input. */
  lemma {:induction false} SortAscProps(s: seq<int>)
    ensures Sorted(SortAsc(s))
    ensures multiset(SortAsc(s)) == multiset(s)
    decreases |s|
  {
    if s != [] {
      SortAscProps(s[1..]);
      InsertAscProps(s[0], SortAsc(s[1..]));
      assert s == [s[0]] + s[1..];
    }
  }

  /** There is only one ascending permutation of a sequence of integers, so
      any correct sort gives SortAsc's result. */
  lemma {:induction false} SortedPermutationUnique(a: seq<int>, b: seq<int>)
    requires Sorted(a) && Sorted(b) && multiset(a) == multiset(b)
    ensures a == b
    decreases |a|
  {
    if a != [] {
      SameHead(a, b);
      SortedPermutationUnique(a[1..], b[1..]);
      assert a == [a[0]] + a[1..] && b == [b[0]] + b[1..];
    }
  }

  /** Two ascending permutations of the same non-empty sequence start with
      the same number, and what follows is again two ascending permutations. */
  lemma SameHead(a: seq<int>, b: seq<int>)
    requires Sorted(a) && Sorted(b) && multiset(a) == multiset(b) && a != []
    ensures b != [] && a[0] == b[0]
    ensures Sorted(a[1..]) && Sorted(b[1..]) && multiset(a[1..]) == multiset(b[1..])
  {
    assert |b| == |multiset(b)| == |a|;
    assert a[0] in multiset(a) && b[0] in multiset(b);
    HeadIsLeast(a, b[0]);
    HeadIsLeast(b, a[0]);
    TailMultiset(a);
    TailMultiset(b);
  }

  /** Dropping the head removes one occurrence of it; the tail stays sorted. */
  lemma TailMultiset(a: seq<int>)
    requires a != [] && Sorted(a)
    ensures multiset(a[1..]) == multiset(a) - multiset{a[0]}
    ensures Sorted(a[1..])
  {
    assert a == [a[0]] + a[1..];
  }

  lemma HeadIsLeast(a: seq<int>, x: int)
    requires Sorted(a) && x in multiset(a)
    ensures a[0] <= x
  {
    assert x in a;
  }

  /** Sorting what is already ascending changes nothing. */
  lemma SortAscOfSorted(s: seq<int>)
    requires Sorted(s)
    ensures SortAsc(s) == s
  {
    SortAscProps(s);
    SortedPermutationUnique(SortAsc(s), s);
  }

  // ---------------------------------------------------------------------
  // Term expansion

  /** `a-b` gives every integer from a to b inclusive, in order. */
  lemma IntervalSpec(a: int, b: int)
    ensures |Interval(a, b)| == if a > b then 0 else b - a + 1
    ensures forall k :: 0 <= k < |Interval(a, b)| ==> Interval(a, b)[k] == a + k
  {
  }

  /** Membership in an interval. */
  lemma IntervalMembers(a: int, b: int, x: int)
    ensures x in Interval(a, b) <==> a <= x <= b
  {
    IntervalSpec(a, b);
    if a <= x <= b {
      assert Interval(a, b)[x - a] == x;
    }
  }

  // `*/n` gives min, min+n, min+2n, ..., each at most max, and stops just
  // before the first one that would exceed max.
  lemma {:induction false} SteppedSpec(lo: int, hi: int, step: nat)
    requires step > 0
    ensures var s := Stepped(lo, hi, step);
      (forall k :: 0 <= k < |s| ==> s[k] == lo + k * step && s[k] <= hi) &&
      lo + |s| * step > hi
    decreases hi - lo
  {
    if lo <= hi {
      SteppedSpec(lo + step, hi, step);
      var s, rest := Stepped(lo, hi, step), Stepped(lo + step, hi, step);
      assert s == [lo] + rest;
      forall k | 1 <= k < |s| ensures s[k] == lo + k * step {
        assert s[k] == rest[k - 1] == lo + step + (k - 1) * step;
      }
      assert lo + |s| * step == lo + step + |rest| * step;
    }
  }

  // ---------------------------------------------------------------------
  // The join/split round trip

  /** The decimal texts of the numbers of one term. */
  function ShowAll(v: seq<nat>): (r: seq<string>)
    ensures |r| == |v|
  {
    seq(|v|, k requires 0 <= k < |v| => Show(v[k]))
  }

  /** The numbers of one term joined with commas, as each term's array is
      turned back into text. */
  function JoinNums(v: seq<nat>): string {
    Join(ShowAll(v), ',')
  }

  /** Each piece of decimal digits read as a number (the unary plus). */
  function ReadNumbers(flat: seq<string>): (r: seq<int>)
    requires forall k :: 0 <= k < |flat| ==> IsDigits(flat[k])
    ensures |r| == |flat|
  {
    seq(|flat|, k requires 0 <= k < |flat| => DecimalValue(flat[k]) as int)
  }

  /** The array of joined term texts, one per term. */
  function JoinedTerms(vs: seq<seq<nat>>): (r: seq<string>)
    ensures |r| == |vs|
  {
    seq(|vs|, k requires 0 <= k < |vs| => JoinNums(vs[k]))
  }

  /** The pieces a joined term contributes when the field is split again. */
  function PieceTexts(v: seq<nat>): (r: seq<string>)
    ensures |r| >= 1
    ensures forall k :: 0 <= k < |r| ==> IsDigits(r[k]) && ',' !in r[k]
  {
    if v == [] then [""]
    else
      var r := ShowAll(v);
      forall k | 0 <= k < |r| ensures ',' !in r[k] {
        var t := r[k];
        assert IsDigits(t);
        assert forall i :: 0 <= i < |t| ==> t[i] != ',';
      }
      r
  }

  function AllPieces(vs: seq<seq<nat>>): (r: seq<string>)
    ensures forall k :: 0 <= k < |r| ==> IsDigits(r[k]) && ',' !in r[k]
    ensures vs != [] ==> |r| >= 1
    decreases |vs|
  {
    if vs == [] then [] else PieceTexts(vs[0]) + AllPieces(vs[1..])
  }

  lemma {:induction false} JoinNested(vs: seq<seq<nat>>)
    requires |vs| >= 1
    ensures Join(JoinedTerms(vs), ',') == Join(AllPieces(vs), ',')
    decreases |vs|
  {
    var parts := JoinedTerms(vs);
    assert JoinNums(vs[0]) == Join(PieceTexts(vs[0]), ',');
    if |vs| > 1 {
      JoinNested(vs[1..]);
      assert parts[1..] == JoinedTerms(vs[1..]);
      JoinAppend(PieceTexts(vs[0]), AllPieces(vs[1..]), ',');
    } else {
      assert |parts| == 1 && parts[0] == JoinNums(vs[0]);
      assert Join(parts, ',') == JoinNums(vs[0]);
      assert vs[1..] == [];
      assert AllPieces(vs) == PieceTexts(vs[0]) + [];
      assert AllPieces(vs) == PieceTexts(vs[0]);
    }
  }

  /** Each text is the decimal text of the number at the same position. */
  predicate ReadsAs(p: seq<string>, f: seq<int>) {
    |p| == |f| && forall k :: 0 <= k < |p| ==> IsDigits(p[k]) && DecimalValue(p[k]) == f[k]
  }

  lemma ReadsAsAppend(p1: seq<string>, f1: seq<int>, p2: seq<string>, f2: seq<int>)
    requires ReadsAs(p1, f1) && ReadsAs(p2, f2)
    ensures ReadsAs(p1 + p2, f1 + f2)
  {
    forall k | 0 <= k < |p1 + p2|
      ensures IsDigits((p1 + p2)[k]) && DecimalValue((p1 + p2)[k]) == (f1 + f2)[k]
    {
      if k >= |p1| {
        assert (p1 + p2)[k] == p2[k - |p1|] && (f1 + f2)[k] == f2[k - |p1|];
      }
    }
  }

  lemma ReadTerm(v: seq<nat>)
    ensures ReadsAs(PieceTexts(v), Padded(v))
  {
    var p := PieceTexts(v);
    if v != [] {
      forall k | 0 <= k < |p| ensures DecimalValue(p[k]) == v[k] {
        ShowRoundTrip(v[k]);
      }
    }
  }

  lemma {:induction false} ReadPieces(vs: seq<seq<nat>>)
    ensures ReadsAs(AllPieces(vs), Flatten(vs))
    decreases |vs|
  {
    if vs != [] {
      ReadPieces(vs[1..]);
      ReadTerm(vs[0]);
      ReadsAsAppend(PieceTexts(vs[0]), Padded(vs[0]), AllPieces(vs[1..]), Flatten(vs[1..]));
    }
  }

  /** The numbers read back from the joined term texts are the padded term
      values in order: each term contributes its numbers, or one 0. */
  lemma RoundTrip(vs: seq<seq<nat>>)
    requires |vs| >= 1
    ensures var flat := Split(Join(JoinedTerms(vs), ','), ',');
      flat == AllPieces(vs) &&
      (forall k :: 0 <= k < |flat| ==> IsDigits(flat[k])) &&
      ReadNumbers(flat) == Flatten(vs)
  {
    JoinNested(vs);
    SplitJoin(AllPieces(vs), ',');
    ReadPieces(vs);
  }

  // ---------------------------------------------------------------------
  // The loops of parse_cron

  /** One term of a field: the `for` body of parse_cron. */
  method ExpandTerm(ri: string, cs: seq<Constraint>, n: nat) returns (vals: seq<nat>)
    requires NumericTerm(ri, n < |cs|)
    ensures vals == TermValues(Classify(ri, n < |cs|), cs, n)
  {
    if '-' in ri {
      var se := Split(ri, '-');
      vals := CountUp(DecimalValue(se[0]), DecimalValue(se[1]));
    } else if HasStepMarker(ri) {
      vals := CountBy(cs[n].0, cs[n].1, DecimalValue(StepText(ri)));
    } else {
      vals := [DecimalValue(ri)];
    }
  }

  /** The loop of the `-` branch: push a, a+1, ..., b. */
  method CountUp(from: nat, b: int) returns (vals: seq<nat>)
    ensures vals == Interval(from, b)
  {
    vals := [];
    var a := from;
    while a <= b
      invariant from <= a <= if from <= b then b + 1 else from
      invariant |vals| == a - from && forall k :: 0 <= k < |vals| ==> vals[k] == from + k
      decreases b - a
    {
      vals := vals + [a];
      a := a + 1;
    }
    IntervalSpec(from, b);
    assert |vals| == |Interval(from, b)|;
    assert forall k :: 0 <= k < |vals| ==> vals[k] == Interval(from, b)[k];
  }

  /** The loop of the step branch: push min, min+step, ... while at most max. */
  method CountBy(min: nat, max: int, step: nat) returns (vals: seq<nat>)
    requires step > 0
    ensures vals == Stepped(min, max, step)
  {
    vals := [];
    var lo := min;
    while lo <= max
      invariant lo >= min && Stepped(min, max, step) == vals + Stepped(lo, max, step)
      decreases max - lo
    {
      vals := vals + [lo];
      lo := lo + step;
    }
  }

  /** One field: the map callback of parse_cron. */
  method ExpandField(d: string, cs: seq<Constraint>, n: nat) returns (vals: seq<int>)
    requires WellFormedField(d, cs, n)
    ensures vals == FieldValues(d, cs, n)
  {
    var range := d;
    if range == "*" {
      range := Show(cs[n].0) + "-" + Show(cs[n].1);
    }
    var terms := Split(range, ',');
    assert terms == FieldTerms(d, cs, n);
    var parts, vs := ExpandTerms(terms, cs, n);
    Reassemble(d, cs, n, vs, parts);
    var flat := Split(Join(parts, ','), ',');
    var nums := ReadNumbers(flat);
    vals := SortAsc(nums);
  }

  /** The `for` loop over the terms of a field: each term is replaced by its
      numbers joined with commas (a literal by its number printed in
      decimal, where the code keeps the term's own text). */
  method ExpandTerms(terms: seq<string>, cs: seq<Constraint>, n: nat) returns (parts: seq<string>, vs: seq<seq<nat>>)
    requires forall k :: 0 <= k < |terms| ==> NumericTerm(terms[k], n < |cs|)
    ensures |parts| == |vs| == |terms|
    ensures forall k :: 0 <= k < |terms| ==> vs[k] == TermValuesAt(terms, k, cs, n) && parts[k] == JoinNums(vs[k])
  {
    vs := [];
    parts := [];
    var i := 0;
    while i < |terms|
      invariant i <= |terms| && |parts| == i && |vs| == i
      invariant forall k :: 0 <= k < i ==> vs[k] == TermValuesAt(terms, k, cs, n) && parts[k] == JoinNums(vs[k])
    {
      var ri := ExpandTerm(terms[i], cs, n);
      parts := parts + [JoinNums(ri)];
      vs := vs + [ri];
      i := i + 1;
    }
  }

  /** A field's values are the numbers its terms leave behind, in ascending
      order: a sorted permutation of the padded term expansions. */
  lemma FieldValuesPermutation(d: string, cs: seq<Constraint>, n: nat)
    requires WellFormedField(d, cs, n)
    ensures Sorted(FieldValues(d, cs, n))
    ensures multiset(FieldValues(d, cs, n)) == multiset(Flatten(FieldExpansions(d, cs, n)))
  {
    SortAscProps(Flatten(FieldExpansions(d, cs, n)));
  }

  /** After the term loop: joining the term texts and reading them back
      gives the padded expansions of the field's terms. */
  lemma Reassemble(d: string, cs: seq<Constraint>, n: nat, vs: seq<seq<nat>>, parts: seq<string>)
    requires WellFormedField(d, cs, n)
    requires |vs| == |parts| == |FieldTerms(d, cs, n)|
    requires forall k :: 0 <= k < |vs| ==>
      vs[k] == TermValuesAt(FieldTerms(d, cs, n), k, cs, n) && parts[k] == JoinNums(vs[k])
    ensures var flat := Split(Join(parts, ','), ',');
      (forall k :: 0 <= k < |flat| ==> IsDigits(flat[k])) &&
      ReadNumbers(flat) == Flatten(FieldExpansions(d, cs, n))
  {
    assert parts == JoinedTerms(vs);
    RoundTrip(vs);
    assert vs == FieldExpansions(d, cs, n);
  }

  /** parse_cron(expr, constraints): one ascending array per space-separated
      field, holding every number its terms expand to (duplicates kept). */
  method ParseCron(expr: string, cs: seq<Constraint>) returns (cronArr: seq<seq<int>>)
    requires WellFormedCron(expr, cs)
    ensures cronArr == CronValues(expr, cs)
  {
    var fields := Split(expr, ' ');
    cronArr := [];
    var n := 0;
    while n < |fields|
      invariant n <= |fields| && |cronArr| == n
      invariant forall k :: 0 <= k < n ==> FieldAt(expr, cs, k, cronArr[k])
    {
      CronField(expr, cs, n);
      var vals := ExpandField(fields[n], cs, n);
      cronArr := cronArr + [vals];
      n := n + 1;
    }
    CronValuesFrom(expr, cs, cronArr);
  }

  /** `vals` is what field k of the expression expands to. */
  predicate FieldAt(expr: string, cs: seq<Constraint>, k: nat, vals: seq<int>) {
    var fields := Split(expr, ' ');
    k < |fields| && WellFormedField(fields[k], cs, k) && vals == FieldValues(fields[k], cs, k)
  }

  /** Field n of a well-formed expression is well formed. */
  lemma CronField(expr: string, cs: seq<Constraint>, n: nat)
    requires WellFormedCron(expr, cs) && n < |Split(expr, ' ')|
    ensures WellFormedField(Split(expr, ' ')[n], cs, n)
  {
  }

  /** A list holding each field's values, in field order, is the result. */
  lemma CronValuesFrom(expr: string, cs: seq<Constraint>, r: seq<seq<int>>)
    requires WellFormedCron(expr, cs) && |r| == |Split(expr, ' ')|
    requires forall k :: 0 <= k < |r| ==> FieldAt(expr, cs, k, r[k])
    ensures r == CronValues(expr, cs)
  {
  }

  /** parse_cron returns one array per space-separated field, each of them
      ascending. */
  lemma CronValuesSorted(expr: string, cs: seq<Constraint>)
    requires WellFormedCron(expr, cs)
    ensures |CronValues(expr, cs)| == |Split(expr, ' ')|
    ensures forall n :: 0 <= n < |CronValues(expr, cs)| ==> Sorted(CronValues(expr, cs)[n])
  {
    var fields := Split(expr, ' ');
    forall n | 0 <= n < |fields| ensures Sorted(CronValues(expr, cs)[n]) {
      FieldValuesPermutation(fields[n], cs, n);
    }
  }

  // ---------------------------------------------------------------------
  // What a field means

  lemma {:induction false} FlattenMembers(vs: seq<seq<int>>, x: int)
    ensures x in Flatten(vs) <==> exists i :: 0 <= i < |vs| && x in Padded(vs[i])
    decreases |vs|
  {
    if vs != [] {
      FlattenMembers(vs[1..], x);
      if x in Flatten(vs[1..]) {
        var i :| 0 <= i < |vs[1..]| && x in Padded(vs[1..][i]);
        assert x in Padded(vs[i + 1]);
      }
      if exists i :: 0 <= i < |vs| && x in Padded(vs[i]) {
        var i :| 0 <= i < |vs| && x in Padded(vs[i]);
        if i > 0 { assert x in Padded(vs[1..][i - 1]); }
      }
    }
  }

  /** A number is allowed by field n exactly when one of the field's terms
      puts it there (a term that expands to nothing puts 0 there). */
  lemma FieldValuesMembers(d: string, cs: seq<Constraint>, n: nat, x: int)
    requires WellFormedField(d, cs, n)
    ensures var vs := FieldExpansions(d, cs, n);
      x in FieldValues(d, cs, n) <==> exists i :: 0 <= i < |vs| && x in Padded(vs[i])
  {
    var flat := Flatten(FieldExpansions(d, cs, n));
    SortAscProps(flat);
    assert x in FieldValues(d, cs, n) <==> x in multiset(FieldValues(d, cs, n));
    assert x in flat <==> x in multiset(flat);
    FlattenMembers(FieldExpansions(d, cs, n), x);
  }

  lemma ShowHasNoSeparator(k: nat, c: char)
    requires c == ',' || c == '-'
    ensures c !in Show(k)
  {
    var t := Show(k);
    assert forall i :: 0 <= i < |t| ==> t[i] != c;
  }

  /** A field that is just `*` gives exactly the integers of its constraint,
      in ascending order. */
  lemma StarField(cs: seq<Constraint>, n: nat)
    requires n < |cs| && cs[n].0 <= cs[n].1
    ensures WellFormedField("*", cs, n)
    ensures FieldValues("*", cs, n) == Interval(cs[n].0, cs[n].1)
  {
    var lo, hi := cs[n].0, cs[n].1;
    var text := Show(lo) + "-" + Show(hi);
    assert FieldText("*", cs, n) == text;
    ShowHasNoSeparator(lo, ',');
    ShowHasNoSeparator(hi, ',');
    ShowHasNoSeparator(lo, '-');
    ShowHasNoSeparator(hi, '-');
    assert ',' !in text;
    SplitPlain(text, ',');
    assert FieldTerms("*", cs, n) == [text];
    assert text == Show(lo) + ['-'] + Show(hi);
    SplitCons(Show(lo), Show(hi), '-');
    SplitPlain(Show(hi), '-');
    assert Split(text, '-') == [Show(lo), Show(hi)];
    assert '-' in text by { assert text[|Show(lo)|] == '-'; }
    ShowRoundTrip(lo);
    ShowRoundTrip(hi);
    assert NumericTerm(text, true);
    assert Classify(text, true) == Span(lo, hi);
    IntervalSpec(lo, hi);
    var vs := FieldExpansions("*", cs, n);
    assert vs == [Interval(lo, hi)];
    assert Flatten(vs) == Interval(lo, hi) + [];
    assert Interval(lo, hi) + [] == Interval(lo, hi);
    SortAscOfSorted(Interval(lo, hi));
  }

  /** A filter whose every field is `*` accepts, in each field, every value
      of that field's constraint, in ascending order. */
  lemma AllStars(expr: string, cs: seq<Constraint>)
    requires |Split(expr, ' ')| <= |cs|
    requires forall n :: 0 <= n < |Split(expr, ' ')| ==> Split(expr, ' ')[n] == "*"
    requires forall n :: 0 <= n < |cs| ==> cs[n].0 <= cs[n].1
    ensures WellFormedCron(expr, cs)
    ensures forall n :: 0 <= n < |Split(expr, ' ')| ==> CronValues(expr, cs)[n] == Interval(cs[n].0, cs[n].1)
  {
    var fields := Split(expr, ' ');
    forall n | 0 <= n < |fields|
      ensures WellFormedField(fields[n], cs, n) && FieldValues(fields[n], cs, n) == Interval(cs[n].0, cs[n].1)
    {
      StarField(cs, n);
    }
  }

  /** Duplicates are kept: "1,1-3" gives 1, 1, 2, 3. */
  lemma DuplicatesKept()
    ensures WellFormedCron("1,1-3", DateConstraints)
    ensures CronValues("1,1-3", DateConstraints) == [[1, 1, 2, 3]]
  {
    DuplicatesKeptField();
    SingleField("1,1-3", DateConstraints);
  }

  /** An expression without a space is one field. */
  lemma SingleField(expr: string, cs: seq<Constraint>)
    requires ' ' !in expr && WellFormedField(expr, cs, 0)
    ensures WellFormedCron(expr, cs)
    ensures CronValues(expr, cs) == [FieldValues(expr, cs, 0)]
  {
    SplitPlain(expr, ' ');
  }

  lemma DuplicatesKeptField()
    ensures WellFormedField("1,1-3", DateConstraints, 0)
    ensures FieldValues("1,1-3", DateConstraints, 0) == [1, 1, 2, 3]
  {
    DuplicatesKeptWith(DateConstraints, 0);
  }

  /** The same in any field: the constraint is not consulted. */
  lemma DuplicatesKeptWith(cs: seq<Constraint>, n: nat)
    ensures WellFormedField("1,1-3", cs, n)
    ensures FieldValues("1,1-3", cs, n) == [1, 1, 2, 3]
  {
    DuplicatesKeptTerms();
    OneAndOneToThree(n < |cs|);
    TwoTermField("1,1-3", cs, n, "1", "1-3");
    OneToThree();
    assert Padded(TermValues(Literal(1), cs, n)) + Padded(TermValues(Span(1, 3), cs, n)) == [1, 1, 2, 3];
    SortAscOfSorted([1, 1, 2, 3]);
  }

  lemma OneToThree()
    ensures Interval(1, 3) == [1, 2, 3] && Sorted([1, 1, 2, 3])
  {
    assert Interval(3, 3) == [3] && Interval(2, 3) == [2, 3];
  }

  /** "1,1-3" splits into the literal 1 and the range 1..3. */
  lemma DuplicatesKeptTerms()
    ensures Split("1,1-3", ',') == ["1", "1-3"]
  {
    SplitCons("1", "1-3", ',');
    SplitPlain("1-3", ',');
    assert "1" + [','] + "1-3" == "1,1-3";
  }

  lemma OneAndOneToThree(constrained: bool)
    ensures NumericTerm("1", constrained) && Classify("1", constrained) == Literal(1)
    ensures NumericTerm("1-3", constrained) && Classify("1-3", constrained) == Span(1, 3)
  {
    LiteralTerm("1", constrained);
    RangeTerm("1", "3", constrained);
    assert "1" + ['-'] + "3" == "1-3";
    assert DecimalValue("1") == 1 && DecimalValue("3") == 3;
  }

  /** A term of digits alone is a literal. */
  lemma LiteralTerm(t: string, constrained: bool)
    requires IsDigits(t)
    ensures NumericTerm(t, constrained) && Classify(t, constrained) == Literal(DecimalValue(t))
  {
    assert '-' !in t;
    assert !HasStepMarker(t);
  }

  /** A term `a-b` of digits splits on '-' into a and b and reads as the
      range between them. */
  lemma RangeTerm(a: string, b: string, constrained: bool)
    requires IsDigits(a) && IsDigits(b)
    ensures Split(a + ['-'] + b, '-') == [a, b]
    ensures NumericTerm(a + ['-'] + b, constrained)
    ensures Classify(a + ['-'] + b, constrained) == Span(DecimalValue(a), DecimalValue(b))
  {
    assert '-' !in a && '-' !in b;
    SplitCons(a, b, '-');
    SplitPlain(b, '-');
    assert '-' in a + ['-'] + b;
  }

  /** A field of two terms expands to their padded values, sorted. */
  lemma TwoTermField(d: string, cs: seq<Constraint>, n: nat, t1: string, t2: string)
    requires d != "*" && Split(d, ',') == [t1, t2]
    requires NumericTerm(t1, n < |cs|) && NumericTerm(t2, n < |cs|)
    ensures WellFormedField(d, cs, n)
    ensures FieldValues(d, cs, n) ==
      SortAsc(Padded(TermValues(Classify(t1, n < |cs|), cs, n)) + Padded(TermValues(Classify(t2, n < |cs|), cs, n)))
  {
    var ts := FieldTerms(d, cs, n);
    assert ts == [t1, t2];
    assert ts[0] == t1 && ts[1] == t2;
    var vs := FieldExpansions(d, cs, n);
    assert vs[0] == TermValues(Classify(t1, n < |cs|), cs, n);
    assert vs[1] == TermValues(Classify(t2, n < |cs|), cs, n);
    FlattenTwo(vs);
  }

  /** Flattening two expansions pads each and joins them. */
  lemma FlattenTwo(vs: seq<seq<int>>)
    requires |vs| == 2
    ensures Flatten(vs) == Padded(vs[0]) + Padded(vs[1])
  {
    assert vs[1..][0] == vs[1] && vs[1..][1..] == [];
    assert Flatten(vs[1..]) == Padded(vs[1]) + Flatten([]);
  }

  /** A field of one term expands to its padded values, sorted. */
  lemma OneTermField(d: string, cs: seq<Constraint>, n: nat)
    requires d != "*" && ',' !in d && NumericTerm(d, n < |cs|)
    ensures WellFormedField(d, cs, n)
    ensures FieldValues(d, cs, n) == SortAsc(Padded(TermValues(Classify(d, n < |cs|), cs, n)))
  {
    SplitPlain(d, ',');
    assert FieldTerms(d, cs, n) == [d];
    var vs := FieldExpansions(d, cs, n);
    assert vs == [TermValues(Classify(d, n < |cs|), cs, n)];
    assert vs[1..] == [];
    assert Flatten(vs) == Padded(vs[0]) + Flatten([]);
    assert Flatten(vs) == Padded(vs[0]);
  }

  /** An inverted range expands to nothing, which the join/split round trip
      turns into a single 0: "5-3" gives [0], like every range whose start
      is above its end. */
  lemma InvertedRangeReadsZero()
    ensures WellFormedCron("5-3", TimeConstraints)
    ensures CronValues("5-3", TimeConstraints) == [[0]]
  {
    assert "5" + ['-'] + "3" == "5-3";
    assert DecimalValue("5") == 5 && DecimalValue("3") == 3;
    InvertedRange("5", "3", TimeConstraints, 0);
    SingleField("5-3", TimeConstraints);
  }

  /** A range a-b with a > b leaves the single value 0 in its field. */
  lemma InvertedRange(a: string, b: string, cs: seq<Constraint>, n: nat)
    requires IsDigits(a) && IsDigits(b) && DecimalValue(a) > DecimalValue(b)
    ensures WellFormedField(a + ['-'] + b, cs, n)
    ensures FieldValues(a + ['-'] + b, cs, n) == [0]
  {
    var d := a + ['-'] + b;
    RangeTerm(a, b, n < |cs|);
    assert d[|a|] == '-' && d != "*";
    assert ',' !in a && ',' !in b;
    assert ',' !in d;
    OneTermField(d, cs, n);
    assert Interval(DecimalValue(a), DecimalValue(b)) == [];
    assert SortAsc([0]) == [0];
  }
}

=== FILE: datemode.dfy ===
/** datetimePicker: the year -> month -> day tree between two instants, with
    the full hour -> minute tree of a day below every day.

    A cursor starts at the start instant and keeps its time of day while its
    date moves. The loop is a do-while: the first day is examined even when
    it is after the end. A rejected year jumps to 1 January of the next year,
    a rejected month to the first of the next month, a rejected day to the
    next day; an accepted day is added to the tree and the cursor moves on
    by a day. The loop goes on while the cursor is not after the end. */
module DateMode {
  import opened JsText
  import opened Cron
  import opened Tree
  import opened Calendar
  import TimeMode

  /** The accepted shapes of `start` and `end`: a year number, or an instant
      (a `Date`, or a text the `Date` parser reads) given by its date and its
      time of day in any unit finer than a day. */
  datatype DateBound = YearNumber(year: int) | Moment(date: Date, clock: int)

  /** A year number is read as a four-digit year; an instant has a date
      that exists. */
  predicate ReadableBound(b: DateBound) {
    match b
    case YearNumber(y) => 1000 <= y <= 9999
    case Moment(d, _) => Valid(d)
  }

  /** The instant a bound becomes: a year number means 1 January 00:00 of
      that year as a start and 31 December 00:00 as an end. */
  function Instant(b: DateBound, isEnd: bool): (r: (Date, int))
    requires ReadableBound(b)
    ensures Valid(r.0)
  {
    match b
    case YearNumber(y) => if isEnd then (Date(y, 12, 31), 0) else (Date(y, 1, 1), 0)
    case Moment(d, clock) => (d, clock)
  }

  /** `start <= end` on two instants: an earlier day, or the same day at a
      time of day not later. */
  predicate NotAfter(c: Date, clock: int, e: Date, endClock: int)
    requires Valid(c) && Valid(e)
  {
    DayIndex(c) < DayIndex(e) || (DayIndex(c) == DayIndex(e) && clock <= endClock)
  }

  /** The day number of the last day a cursor with time of day `clock` may
      visit: the end's day, or the day before when the end's time of day is
      earlier than the cursor's. */
  function LastDay(clock: int, e: Date, endClock: int): (last: int)
    requires Valid(e)
    ensures forall c :: Valid(c) ==> (NotAfter(c, clock, e, endClock) <==> DayIndex(c) <= last)
  {
    if clock <= endClock then DayIndex(e) else DayIndex(e) - 1
  }

  /** The day passes the day, month and year filters. */
  predicate Accepted(c: Date, days: seq<int>, months: seq<int>, years: seq<int>) {
    c.year in years && c.month in months && c.day in days
  }

  /** The (year, month, day) path of a day in the tree. */
  function DatePath(c: Date): seq<int> {
    [c.year, c.month, c.day]
  }

  /** The levels of the date tree. */
  const DateUnits: seq<Unit> := [Year, Month, Day]

  /** The paths of the accepted days from `c` up to day number `last`, in
      order. */
  function AcceptedFrom(c: Date, last: int, days: seq<int>, months: seq<int>, years: seq<int>): (ps: seq<seq<int>>)
    requires Valid(c)
    ensures PathsOfDepth(ps, 3)
    decreases last - DayIndex(c)
  {
    if DayIndex(c) > last then []
    else
      NextDayIndex(c);
      (if Accepted(c, days, months, years) then [DatePath(c)] else []) + AcceptedFrom(NextDay(c), last, days, months, years)
  }

  /** The paths the do-while adds: the first day whenever it is accepted,
      even past the end, then the accepted days after it up to `last`. */
  function DayPaths(start: Date, last: int, days: seq<int>, months: seq<int>, years: seq<int>): (ps: seq<seq<int>>)
    requires Valid(start)
    ensures PathsOfDepth(ps, 3)
  {
    (if Accepted(start, days, months, years) then [DatePath(start)] else []) + AcceptedFrom(NextDay(start), last, days, months, years)
  }

  /** The tree datetimePicker hands to the picker; every day node carries
      `time` as its `children`. */
  function DateTree(start: Date, last: int, days: seq<int>, months: seq<int>, years: seq<int>, time: seq<Node>): seq<Node>
    requires Valid(start)
  {
    InsertAll([], DayPaths(start, last, days, months, years), DateUnits, Some(time))
  }

  /** The hour -> minute tree of a whole day: what timePicker gives for
      00:00 to 23:59 with every hour and every minute accepted. */
  function DayTime(): seq<Node> {
    TimeMode.TimeTree(0, 1439, Interval(0, 59), Interval(0, 23))
  }

  // ---------------------------------------------------------------------
  // The cursor's jumps

  /** The jump from a rejected year: set the year to the next one, then
      the month to January, then the day to 1. */
  function YearSkip(c: Date): (r: Date)
    requires Valid(c)
    ensures r == Date(c.year + 1, 1, 1)
  {
    SetDate(SetMonth(SetFullYear(c, c.year + 1), 0), 1)
  }

  /** The jump from a rejected month as written: the month is moved on
      first while the day is kept, so a day past the end of the next month
      rolls over into the month after it before the day is set to 1. */
  function MonthSkipAsWritten(c: Date): (r: Date)
    requires Valid(c)
    ensures Valid(r) && r.day == 1
  {
    SetDate(SetMonth(c, GetMonth(c) + 1), 1)
  }

  /** The jump to the first of the next month, with the day set to 1 before
      the month is moved. */
  function MonthSkip(c: Date): (r: Date)
    requires Valid(c)
    ensures r == if c.month < 12 then Date(c.year, c.month + 1, 1) else Date(c.year + 1, 1, 1)
  {
    SetMonth(SetDate(c, 1), GetMonth(c) + 1)
  }

  /** The days a rejected year's jump passes over are all in that year, so
      none of them would have been added; and the jump moves forward. */
  lemma {:induction false} SkipYear(c: Date, last: int, days: seq<int>, months: seq<int>, years: seq<int>)
    requires Valid(c) && c.year !in years
    ensures DayIndex(c) < DayIndex(YearSkip(c))
    ensures AcceptedFrom(NextDay(c), last, days, months, years) == AcceptedFrom(YearSkip(c), last, days, months, years)
    decreases DaysBeforeYear(c.year + 1) - DayIndex(c)
  {
    var n := NextDay(c);
    DayIndexRange(c);
    NextDayIndex(c);
    assert DayIndex(YearSkip(c)) == DaysBeforeYear(c.year + 1);
    if n != YearSkip(c) {
      NextDayShape(c);
      assert n.year == c.year && YearSkip(n) == YearSkip(c);
      SkipYear(n, last, days, months, years);
      PassOver(n, last, days, months, years);
    }
  }

  /** A rejected day contributes nothing: what is listed from it is what is
      listed from the day after. */
  lemma PassOver(c: Date, last: int, days: seq<int>, months: seq<int>, years: seq<int>)
    requires Valid(c) && !Accepted(c, days, months, years)
    ensures AcceptedFrom(c, last, days, months, years) == AcceptedFrom(NextDay(c), last, days, months, years)
  {
    NextDayIndex(c);
    if DayIndex(c) <= last {
      assert AcceptedFrom(c, last, days, months, years) == [] + AcceptedFrom(NextDay(c), last, days, months, years);
    }
  }

  /** The days the corrected month jump passes over are all in the rejected
      month, so none of them would have been added; and the jump moves
      forward. */
  lemma {:induction false} SkipMonth(c: Date, last: int, days: seq<int>, months: seq<int>, years: seq<int>)
    requires Valid(c) && c.month !in months
    ensures DayIndex(c) < DayIndex(MonthSkip(c))
    ensures AcceptedFrom(NextDay(c), last, days, months, years) == AcceptedFrom(MonthSkip(c), last, days, months, years)
    decreases DaysBeforeYear(c.year) + DaysBeforeMonth(c.year, c.month + 1) - DayIndex(c)
  {
    var n := NextDay(c);
    DayIndexRange(c);
    NextDayIndex(c);
    NextDayShape(c);
    if c.month == 12 {
      YearLength(c.year);
      MonthsMakeYear(c.year);
    }
    assert DayIndex(MonthSkip(c)) == DaysBeforeYear(c.year) + DaysBeforeMonth(c.year, c.month + 1);
    if n != MonthSkip(c) {
      assert n.year == c.year && n.month == c.month && MonthSkip(n) == MonthSkip(c);
      SkipMonth(n, last, days, months, years);
      PassOver(n, last, days, months, years);
    }
  }

  // ---------------------------------------------------------------------
  // The loops

  /** The two nested loops over hours 0..23 and minutes 0..59 that build
      the hour -> minute subtree shared by every day. It is the whole-day
      timePicker tree. */
  method TimeOfDay() returns (time: seq<Node>)
    ensures time == DayTime()
  {
    ghost var minutes, hours := Interval(0, 59), Interval(0, 23);
    time := [];
    var hour := 0;
    while hour <= 23
      invariant 0 <= hour <= 24 && HoursDone(time, hour, minutes, hours)
    {
      IntervalMembers(0, 23, hour);
      var kids := HourMinutes(time, hour, minutes, hours);
      time := time + [Node(Label(hour, Hour), hour, Some(kids))];
      hour := hour + 1;
    }
    DayDone(time, hour, minutes, hours);
  }

  /** All 24 hours built is the whole-day tree. */
  lemma DayDone(time: seq<Node>, hour: int, minutes: seq<int>, hours: seq<int>)
    requires hour == 24 && minutes == Interval(0, 59) && hours == Interval(0, 23)
    requires HoursDone(time, hour, minutes, hours)
    ensures time == DayTime()
  {
  }

  /** The first `hour` hours of the whole-day tree are built, and only they. */
  ghost predicate HoursDone(time: seq<Node>, hour: int, minutes: seq<int>, hours: seq<int>) {
    && time == TimeMode.TimeTree(0, hour * 60 - 1, minutes, hours)
    && forall j :: 0 <= j < |time| ==> time[j].value < hour
  }

  /** The inner loop of TimeOfDay: the minute nodes 0..59 of one hour, which
      complete that hour of the whole-day tree. */
  method HourMinutes(ghost time: seq<Node>, hour: int, ghost minutes: seq<int>, ghost hours: seq<int>) returns (kids: seq<Node>)
    requires 0 <= hour <= 23 && hour in hours && minutes == Interval(0, 59)
    requires HoursDone(time, hour, minutes, hours)
    ensures HoursDone(time + [Node(Label(hour, Hour), hour, Some(kids))], hour + 1, minutes, hours)
  {
    kids := [];
    var minute := 0;
    while minute <= 59
      invariant 0 <= minute <= 60 && MinutesDone(time, hour, kids, minute, minutes, hours)
    {
      IntervalMembers(0, 59, minute);
      AddFullMinute(time, kids, hour, minute, minutes, hours);
      kids := kids + [Node(Label(minute, Minute), minute, None)];
      minute := minute + 1;
    }
    assert hour * 60 + minute - 1 == (hour + 1) * 60 - 1;
  }

  /** The first `minute` minutes of hour `hour` are in its node, and only they. */
  ghost predicate MinutesDone(time: seq<Node>, hour: int, kids: seq<Node>, minute: int, minutes: seq<int>, hours: seq<int>) {
    && (forall j :: 0 <= j < |kids| ==> kids[j].value < minute)
    && (minute == 0 ==> kids == [])
    && (minute > 0 ==>
          time + [Node(Label(hour, Hour), hour, Some(kids))] == TimeMode.TimeTree(0, hour * 60 + minute - 1, minutes, hours))
  }

  /** One step of the inner loop of TimeOfDay: pushing minute `minute` into
      the newest hour node adds the next minute of the whole-day tree. */
  lemma AddFullMinute(time: seq<Node>, kids: seq<Node>, hour: int, minute: int, minutes: seq<int>, hours: seq<int>)
    requires 0 <= hour <= 23 && 0 <= minute <= 59 && hour in hours && minute in minutes
    requires HoursDone(time, hour, minutes, hours) && MinutesDone(time, hour, kids, minute, minutes, hours)
    ensures MinutesDone(time, hour, kids + [Node(Label(minute, Minute), minute, None)], minute + 1, minutes, hours)
  {
    var t := hour * 60 + minute;
    TimeMode.TimeTreeStep(0, t - 1, minutes, hours);
    TimeMode.ClockReading(hour, minute);
    assert TimeMode.Accepted(t, minutes, hours) && TimeMode.TimePath(t) == [hour, minute];
    PushMinute(time, kids, hour, minute, TimeMode.TimeTree(0, t - 1, minutes, hours));
  }

  /** Inserting (hour, minute) where the hour is new or is the newest node,
      holding only earlier minutes, appends the minute to that hour. */
  lemma PushMinute(time: seq<Node>, kids: seq<Node>, hour: int, minute: nat, before: seq<Node>)
    requires forall j :: 0 <= j < |time| ==> time[j].value < hour
    requires forall j :: 0 <= j < |kids| ==> kids[j].value < minute
    requires minute == 0 ==> kids == [] && before == time
    requires minute > 0 ==> before == time + [Node(Label(hour, Hour), hour, Some(kids))]
    ensures Insert(before, [hour, minute], TimeMode.TimeUnits, None) ==
      time + [Node(Label(hour, Hour), hour, Some(kids + [Node(Label(minute, Minute), minute, None)]))]
  {
    var r := time + [Node(Label(hour, Hour), hour, Some(kids))];
    assert r[|time|].value == hour && [hour, minute][0] == hour && TimeMode.TimeUnits[0] == Hour;
    if minute == 0 {
      assert Find(before, hour).None?;
      assert r == before + [Node(Label(hour, Hour), hour, Some([]))];
    } else {
      assert forall j :: 0 <= j < |time| ==> r[j] == time[j];
      assert Find(before, hour) == Some(|time|);
    }
    InsertOuterLevel(before, [hour, minute], TimeMode.TimeUnits, None, r, |time|);
    var leaf := Node(Label(minute, Minute), minute, None);
    InsertInnerLevel(kids, minute, Minute, None, kids + [leaf]);
    assert [hour, minute][1..] == [minute] && TimeMode.TimeUnits[1..] == [Minute];
    assert r[|time| := r[|time|].(children := Some(kids + [leaf]))] ==
      time + [Node(Label(hour, Hour), hour, Some(kids + [leaf]))];
  }

  /** The find-or-create block of the loop body for one accepted day: the
      year node, the month node below it and the day node below that, the
      day node getting `time` as its `children`. */
  method AddDay(date: seq<Node>, year: int, month: int, day: int, time: seq<Node>) returns (r: seq<Node>)
    ensures r == Insert(date, [year, month, day], DateUnits, Some(time))
  {
    var y: nat;
    r, y := FindOrPush(date, Node(Label(year, Year), year, Some([])));
    var ms, m := FindOrPush(Children(r[y]), Node(Label(month, Month), month, Some([])));
    var ds, _ := FindOrPush(Children(ms[m]), Node(Label(day, Day), day, Some(time)));
    InsertInnerLevel(Children(ms[m]), day, Day, Some(time), ds);
    InsertOuterLevel(Children(r[y]), [month, day], [Month, Day], Some(time), ms, m);
    InsertOuterLevel(date, [year, month, day], DateUnits, Some(time), r, y);
    assert [year, month, day][1..] == [month, day] && [month, day][1..] == [day];
    assert DateUnits[1..] == [Month, Day] && [Month, Day][1..] == [Day];
    ms := ms[m := ms[m].(children := Some(ds))];
    r := r[y := r[y].(children := Some(ms))];
  }

  /** A measure of the days left: zero once the cursor is past `last`. */
  function DaysLeft(c: Date, last: int): nat
    requires Valid(c)
  {
    if DayIndex(c) <= last then last + 1 - DayIndex(c) else 0
  }

  /** Past the first pass the loop runs only while the cursor is not after
      the last day, and then what is left to add starts with the cursor's
      own day, as on the first pass. */
  lemma PendingFrom(c: Date, last: int, days: seq<int>, months: seq<int>, years: seq<int>)
    requires Valid(c) && DayIndex(c) <= last
    ensures AcceptedFrom(c, last, days, months, years) == DayPaths(c, last, days, months, years)
  {
  }

  /** What is left to add after examining the cursor's day: nothing from a
      rejected day, the day itself from an accepted one. */
  lemma PendingAfter(c: Date, last: int, days: seq<int>, months: seq<int>, years: seq<int>)
    requires Valid(c)
    ensures !Accepted(c, days, months, years) ==>
      DayPaths(c, last, days, months, years) == AcceptedFrom(NextDay(c), last, days, months, years)
    ensures Accepted(c, days, months, years) ==>
      DayPaths(c, last, days, months, years) == [DatePath(c)] + AcceptedFrom(NextDay(c), last, days, months, years)
  {
  }

  /** The do-while loop of datetimePicker. */
  method Enumerate(start: Date, startClock: int, end: Date, endClock: int,
                   days: seq<int>, months: seq<int>, years: seq<int>, time: seq<Node>)
    returns (date: seq<Node>)
    requires Valid(start) && Valid(end)
    ensures date == DateTree(start, LastDay(startClock, end, endClock), days, months, years, time)
  {
    ghost var last := LastDay(startClock, end, endClock);
    ghost var goal := DateTree(start, last, days, months, years, time);
    date := [];
    var c := start;
    var first := true;
    while first || NotAfter(c, startClock, end, endClock)
      invariant Valid(c)
      invariant InsertAll(date, if first then DayPaths(c, last, days, months, years) else AcceptedFrom(c, last, days, months, years),
                          DateUnits, Some(time)) == goal
      decreases (if first then 1 else 0) + DaysLeft(c, last)
    {
      if !first {
        PendingFrom(c, last, days, months, years);
      }
      first := false;
      date, c := VisitDay(date, c, last, days, months, years, time);
    }
  }

  /** One pass of the loop body: a rejected year jumps to the next 1
      January, a rejected month to the first of the next month, a rejected
      day to the next day, and an accepted day is added to the tree before
      moving to the next day. The cursor moves forward, and what is still to
      be added together with the tree so far gives the same final tree. */
  method VisitDay(date: seq<Node>, c: Date, ghost last: int, days: seq<int>, months: seq<int>, years: seq<int>, time: seq<Node>)
    returns (date': seq<Node>, c': Date)
    requires Valid(c)
    ensures Valid(c') && DayIndex(c) < DayIndex(c')
    ensures InsertAll(date', AcceptedFrom(c', last, days, months, years), DateUnits, Some(time))
         == InsertAll(date, DayPaths(c, last, days, months, years), DateUnits, Some(time))
  {
    NextDayIndex(c);
    PendingAfter(c, last, days, months, years);
    var year, month, day := c.year, c.month, c.day;
    if year !in years {
      SkipYear(c, last, days, months, years);
      date', c' := date, YearSkip(c);
    } else if month !in months {
      SkipMonth(c, last, days, months, years);
      date', c' := date, MonthSkip(c);
    } else if day !in days {
      date', c' := date, NextDay(c);
    } else {
      var rest := AcceptedFrom(NextDay(c), last, days, months, years);
      InsertAllCons(date, [year, month, day], rest, DateUnits, Some(time));
      date' := AddDay(date, year, month, day, time);
      c' := NextDay(c);
    }
  }

  /** datetimePicker(options) up to the hand-off to the picker: read the
      bounds, build the time subtree, expand the filter against day [1, 31],
      month [1, 12] and year [1910, 2050], and enumerate. */
  method DatetimePicker(start: DateBound, end: DateBound, cron: string) returns (date: seq<Node>)
    requires ReadableBound(start) && ReadableBound(end)
    requires WellFormedCron(cron, DateConstraints) && |Split(cron, ' ')| >= 3
    ensures var s, e, c := Instant(start, false), Instant(end, true), CronValues(cron, DateConstraints);
      date == DateTree(s.0, LastDay(s.1, e.0, e.1), c[0], c[1], c[2], DayTime())
    ensures WellFormed(date, DateUnits, Some(DayTime())) && Ascending(date, 3)
  {
    var time := TimeOfDay();
    var cronArr := ParseCron(cron, DateConstraints);
    var s, e := Instant(start, false), Instant(end, true);
    date := Enumerate(s.0, s.1, e.0, e.1, cronArr[0], cronArr[1], cronArr[2], time);
    DateTreeWellFormed(s.0, LastDay(s.1, e.0, e.1), cronArr[0], cronArr[1], cronArr[2], time);
    DateTreeAscending(s.0, LastDay(s.1, e.0, e.1), cronArr[0], cronArr[1], cronArr[2], time);
  }

  // ---------------------------------------------------------------------
  // What the tree holds

  /** The accepted paths from `c` are exactly those of the accepted days
      from `c` to the last day. */
  lemma {:induction false} AcceptedFromMembers(c: Date, last: int, days: seq<int>, months: seq<int>, years: seq<int>, q: seq<int>)
    requires Valid(c)
    ensures q in AcceptedFrom(c, last, days, months, years) <==>
      exists u :: Valid(u) && DayIndex(c) <= DayIndex(u) <= last && Accepted(u, days, months, years) && q == DatePath(u)
    decreases last - DayIndex(c)
  {
    if DayIndex(c) <= last {
      NextDayIndex(c);
      AcceptedFromMembers(NextDay(c), last, days, months, years, q);
      if exists u :: Valid(u) && DayIndex(c) <= DayIndex(u) <= last && Accepted(u, days, months, years) && q == DatePath(u) {
        var u :| Valid(u) && DayIndex(c) <= DayIndex(u) <= last && Accepted(u, days, months, years) && q == DatePath(u);
        DayIndexOrder(c, u);
        if u != c {
          assert DayIndex(NextDay(c)) <= DayIndex(u);
        }
      }
    }
  }

  /** Soundness and completeness: the tree has the day node (y, m, d)
      exactly when that date exists, passes the filter, and is the start
      day or comes after it no later than the last day. */
  lemma DateTreeHolds(start: Date, last: int, days: seq<int>, months: seq<int>, years: seq<int>, time: seq<Node>,
                      y: int, m: int, d: int)
    requires Valid(start)
    ensures var u := Date(y, m, d);
      HasPath(DateTree(start, last, days, months, years, time), [y, m, d]) <==>
      Valid(u) && Accepted(u, days, months, years) && (u == start || DayIndex(start) < DayIndex(u) <= last)
  {
    var u := Date(y, m, d);
    var ps := DayPaths(start, last, days, months, years);
    InsertAllPaths([], ps, DateUnits, Some(time), [y, m, d]);
    NextDayIndex(start);
    AcceptedFromMembers(NextDay(start), last, days, months, years, [y, m, d]);
    if [y, m, d] in AcceptedFrom(NextDay(start), last, days, months, years) {
      var w :| Valid(w) && DayIndex(NextDay(start)) <= DayIndex(w) <= last && Accepted(w, days, months, years) && [y, m, d] == DatePath(w);
      assert w == u;
    }
    if Valid(u) && Accepted(u, days, months, years) && u != start && DayIndex(start) < DayIndex(u) <= last {
      assert DatePath(u) == [y, m, d];
    }
  }

  /** Every day node has `time` as its `children`; labels carry their
      values and units; values are unique in every `children` array. */
  lemma DateTreeWellFormed(start: Date, last: int, days: seq<int>, months: seq<int>, years: seq<int>, time: seq<Node>)
    requires Valid(start)
    ensures WellFormed(DateTree(start, last, days, months, years, time), DateUnits, Some(time))
  {
    InsertAllWellFormed([], DayPaths(start, last, days, months, years), DateUnits, Some(time));
  }

  /** A later date has a lexicographically later path. */
  lemma BeforePath(a: Date, b: Date)
    requires Before(a, b)
    ensures LexLess(DatePath(a), DatePath(b))
  {
    var p, q := DatePath(a), DatePath(b);
    assert p[1..] == [a.month, a.day] && q[1..] == [b.month, b.day];
    assert p[1..][1..] == [a.day] && q[1..][1..] == [b.day];
  }

  /** The accepted paths from `c` come in strictly increasing order, each
      after the path of every day before `c`. */
  lemma {:induction false} AcceptedFromIncreasing(c: Date, last: int, days: seq<int>, months: seq<int>, years: seq<int>)
    requires Valid(c)
    ensures Increasing(AcceptedFrom(c, last, days, months, years))
    decreases last - DayIndex(c)
  {
    if DayIndex(c) <= last {
      NextDayIndex(c);
      var rest := AcceptedFrom(NextDay(c), last, days, months, years);
      AcceptedFromIncreasing(NextDay(c), last, days, months, years);
      if Accepted(c, days, months, years) {
        forall j | 0 <= j < |rest| ensures LexLess(DatePath(c), rest[j]) {
          LaterPath(c, last, days, months, years, rest[j]);
        }
        ConsIncreasing(DatePath(c), rest);
        assert AcceptedFrom(c, last, days, months, years) == [DatePath(c)] + rest;
      }
    }
  }

  /** Every path accepted after `c` comes after the path of `c`. */
  lemma LaterPath(c: Date, last: int, days: seq<int>, months: seq<int>, years: seq<int>, q: seq<int>)
    requires Valid(c) && q in AcceptedFrom(NextDay(c), last, days, months, years)
    ensures LexLess(DatePath(c), q)
  {
    NextDayIndex(c);
    AcceptedFromMembers(NextDay(c), last, days, months, years, q);
    var u :| Valid(u) && DayIndex(NextDay(c)) <= DayIndex(u) <= last && Accepted(u, days, months, years) && q == DatePath(u);
    DayIndexOrder(c, u);
    BeforePath(c, u);
  }

  /** Years, the months of every year and the days of every month ascend. */
  lemma DateTreeAscending(start: Date, last: int, days: seq<int>, months: seq<int>, years: seq<int>, time: seq<Node>)
    requires Valid(start)
    ensures Ascending(DateTree(start, last, days, months, years, time), 3)
  {
    var rest := AcceptedFrom(NextDay(start), last, days, months, years);
    AcceptedFromIncreasing(NextDay(start), last, days, months, years);
    if Accepted(start, days, months, years) {
      forall j | 0 <= j < |rest| ensures LexLess(DatePath(start), rest[j]) {
        LaterPath(start, last, days, months, years, rest[j]);
      }
      ConsIncreasing(DatePath(start), rest);
    }
    assert Increasing(DayPaths(start, last, days, months, years));
    InsertAllAscending([], DayPaths(start, last, days, months, years), DateUnits, Some(time));
  }

  /** A start after the end still gets its own day, when accepted, and no
      other: the do-while examines the first day before testing the bound. */
  lemma StartAfterEnd(start: Date, last: int, days: seq<int>, months: seq<int>, years: seq<int>)
    requires Valid(start) && last < DayIndex(start)
    ensures DayPaths(start, last, days, months, years) ==
      if Accepted(start, days, months, years) then [DatePath(start)] else []
  {
    NextDayIndex(start);
  }

  /** With year numbers as bounds, the tree holds the accepted days of the
      years from the start year to the end year, both included. */
  lemma YearBounds(y1: int, y2: int, days: seq<int>, months: seq<int>, years: seq<int>, time: seq<Node>,
                   y: int, m: int, d: int)
    requires 1000 <= y1 <= y2 <= 9999
    ensures var s, e := Instant(YearNumber(y1), false), Instant(YearNumber(y2), true);
      HasPath(DateTree(s.0, LastDay(s.1, e.0, e.1), days, months, years, time), [y, m, d]) <==>
      Valid(Date(y, m, d)) && Accepted(Date(y, m, d), days, months, years) && y1 <= y <= y2
  {
    var u, first, final := Date(y, m, d), Date(y1, 1, 1), Date(y2, 12, 31);
    DateTreeHolds(first, DayIndex(final), days, months, years, time, y, m, d);
    if Valid(u) {
      DayIndexOrder(first, u);
      DayIndexOrder(u, final);
    }
  }

  /** The whole-day subtree has the minute node (h, m) for every hour
      0..23 and every minute 0..59, and no other. */
  lemma DayTimeHolds(h: int, m: int)
    ensures HasPath(DayTime(), [h, m]) <==> 0 <= h <= 23 && 0 <= m <= 59
  {
    TimeMode.TimeTreeHolds(0, 1439, Interval(0, 59), Interval(0, 23), h, m);
    IntervalMembers(0, 59, m);
    IntervalMembers(0, 23, h);
    if 0 <= h <= 23 && 0 <= m <= 59 {
      TimeMode.ClockReading(h, m);
    }
  }

  /** The default filter "* * *" accepts every value of the constraints:
      days 1..31, months 1..12, years 1910..2050. */
  lemma DefaultFilter()
    ensures WellFormedCron("* * *", DateConstraints) && |Split("* * *", ' ')| == 3
    ensures forall n :: 0 <= n < 3 ==>
      CronValues("* * *", DateConstraints)[n] == Interval(DateConstraints[n].0, DateConstraints[n].1)
  {
    assert "* * *" == "*" + [' '] + ("*" + [' '] + "*");
    SplitCons("*", "*" + [' '] + "*", ' ');
    assert "*" + [' '] + "*" == "* *";
    SplitCons("*", "*", ' ');
    SplitPlain("*", ' ');
    AllStars("* * *", DateConstraints);
  }

  // ---------------------------------------------------------------------
  // The month jump as written

  /** From 31 January 2021 with February the only month accepted, the jump
      as written lands on 1 March: 1 February, which passes the filter and
      lies before the end, is never visited, while the corrected jump
      visits it. */
  lemma MonthSkipLosesFebruary(days: seq<int>, years: seq<int>, last: int)
    requires 1 in days && 2021 in years && last >= DayIndex(Date(2021, 2, 1))
    ensures !Accepted(Date(2021, 1, 31), days, [2], years)
    ensures MonthSkipAsWritten(Date(2021, 1, 31)) == Date(2021, 3, 1)
    ensures MonthSkip(Date(2021, 1, 31)) == Date(2021, 2, 1)
    ensures Accepted(Date(2021, 2, 1), days, [2], years)
    ensures DatePath(Date(2021, 2, 1)) in AcceptedFrom(MonthSkip(Date(2021, 1, 31)), last, days, [2], years)
    ensures DatePath(Date(2021, 2, 1)) !in AcceptedFrom(MonthSkipAsWritten(Date(2021, 1, 31)), last, days, [2], years)
  {
    var jan31, feb1, mar1 := Date(2021, 1, 31), Date(2021, 2, 1), Date(2021, 3, 1);
    assert !IsLeap(2021);
    assert SetMonth(jan31, 1) == mar1.(day := 3);
    AcceptedFromMembers(feb1, last, days, [2], years, DatePath(feb1));
    AcceptedFromMembers(mar1, last, days, [2], years, DatePath(feb1));
    BeforeIndex(feb1, mar1);
  }
}

=== FILE: jstext.dfy ===
/** The few JavaScript string and number builtins that parse_cron relies on:
    String.prototype.split on a one-character separator, Array.prototype.join,
    String.prototype.indexOf, the unary `+` (Number) on strings of decimal
    digits, and the conversion of a non-negative integer back to its decimal
    text. Each comes with the law that makes it usable: split and join are
    inverse to one another, and reading back the printed form of a number
    gives the number. */
module JsText {

  /** `s.split(c)`: the pieces of `s` between occurrences of `c`, in order.
      Like JavaScript, the empty string splits into one empty piece and two
      adjacent separators give an empty piece between them. */
  function Split(s: string, c: char): (r: seq<string>)
    ensures |r| >= 1
    ensures forall i :: 0 <= i < |r| ==> c !in r[i]
    ensures c in s ==> |r| >= 2
    decreases |s|
  {
    if |s| == 0 then [""]
    else
      var rest := Split(s[1..], c);
      if s[0] == c then [""] + rest
      else
        assert c !in rest[0];
        [[s[0]] + rest[0]] + rest[1..]
  }

  /** `ps.join(c)`: the pieces glued together with `c` between neighbours;
      the empty array joins to the empty string. */
  function Join(ps: seq<string>, c: char): string
    decreases |ps|
  {
    if |ps| == 0 then ""
    else if |ps| == 1 then ps[0]
    else ps[0] + [c] + Join(ps[1..], c)
  }

  /** Splitting a text and joining the pieces again gives back the text. */
  lemma {:induction false} JoinSplit(s: string, c: char)
    ensures Join(Split(s, c), c) == s
    decreases |s|
  {
    if |s| > 0 {
      JoinSplit(s[1..], c);
      var rest := Split(s[1..], c);
      if s[0] == c {
        assert Split(s, c) == [""] + rest;
        assert Join(Split(s, c), c) == [c] + Join(rest, c);
        assert s == [s[0]] + s[1..];
      } else {
        var r := Split(s, c);
        assert r == [[s[0]] + rest[0]] + rest[1..];
        if |rest| == 1 {
          assert Join(r, c) == [s[0]] + rest[0];
        } else {
          assert Join(rest, c) == rest[0] + [c] + Join(rest[1..], c);
          assert r[1..] == rest[1..];
          assert Join(r, c) == ([s[0]] + rest[0]) + [c] + Join(rest[1..], c);
        }
        assert s == [s[0]] + s[1..];
      }
    }
  }

  /** A piece free of the separator is a single piece. */
  lemma {:induction false} SplitPlain(x: string, c: char)
    requires c !in x
    ensures Split(x, c) == [x]
    decreases |x|
  {
    if |x| > 0 {
      assert c !in x[1..];
      SplitPlain(x[1..], c);
      assert x == [x[0]] + x[1..];
    }
  }

  /** A separator-free head followed by the separator splits off exactly. */
  lemma {:induction false} SplitCons(x: string, y: string, c: char)
    requires c !in x
    ensures Split(x + [c] + y, c) == [x] + Split(y, c)
    decreases |x|
  {
    if |x| == 0 {
      assert x + [c] + y == [c] + y;
      assert ([c] + y)[1..] == y;
    } else {
      assert c !in x[1..];
      SplitCons(x[1..], y, c);
      assert (x + [c] + y)[1..] == x[1..] + [c] + y;
      assert [x[0]] + x[1..] == x;
    }
  }

  /** Joining separator-free pieces and splitting again gives back the
      pieces: the inverse direction of JoinSplit. */
  lemma {:induction false} SplitJoin(ps: seq<string>, c: char)
    requires |ps| >= 1
    requires forall i :: 0 <= i < |ps| ==> c !in ps[i]
    ensures Split(Join(ps, c), c) == ps
    decreases |ps|
  {
    if |ps| == 1 {
      SplitPlain(ps[0], c);
    } else {
      SplitJoin(ps[1..], c);
      SplitCons(ps[0], Join(ps[1..], c), c);
      assert [ps[0]] + ps[1..] == ps;
    }
  }

  /** Joining two non-empty lists of pieces puts one separator between them. */
  lemma {:induction false} JoinAppend(a: seq<string>, b: seq<string>, c: char)
    requires |a| >= 1 && |b| >= 1
    ensures Join(a + b, c) == Join(a, c) + [c] + Join(b, c)
    decreases |a|
  {
    if |a| == 1 {
      assert (a + b)[1..] == b;
    } else {
      JoinAppend(a[1..], b, c);
      assert (a + b)[1..] == a[1..] + b;
    }
  }

  /** Every character of `s` is a decimal digit (the empty string included). */
  predicate IsDigits(s: string) {
    forall i :: 0 <= i < |s| ==> '0' <= s[i] <= '9'
  }

  /** `+s` for a string of decimal digits. As in JavaScript, the empty string
      reads as 0 and leading zeros are ignored. */
  function DecimalValue(s: string): nat
    requires IsDigits(s)
    decreases |s|
  {
    if |s| == 0 then 0
    else 10 * DecimalValue(s[..|s| - 1]) + (s[|s| - 1] as int - '0' as int)
  }

  /** The decimal text of `n`, as `String(n)` prints a non-negative integer. */
  function Show(n: nat): (r: string)
    ensures |r| >= 1 && IsDigits(r)
    decreases n
  {
    if n < 10 then [('0' as int + n) as char]
    else Show(n / 10) + [('0' as int + n % 10) as char]
  }

  /** Reading back the printed form of a number gives the number. */
  lemma {:induction false} ShowRoundTrip(n: nat)
    ensures DecimalValue(Show(n)) == n
    decreases n
  {
    if n >= 10 {
      ShowRoundTrip(n / 10);
      var s := Show(n);
      assert s[..|s| - 1] == Show(n / 10);
    }
  }

  /** `s.indexOf(c)` when `c` occurs in `s`: the first position of `c`. */
  function FirstIndex(s: string, c: char): (i: nat)
    requires c in s
    ensures i < |s| && s[i] == c && c !in s[..i]
    decreases |s|
  {
    if s[0] == c then 0
    else
      var j := FirstIndex(s[1..], c);
      assert s[..j + 1] == [s[0]] + s[1..][..j];
      j + 1
  }
}

=== FILE: timemode.dfy ===
/** timePicker: the hour -> minute tree between two clock times.

    Both bounds are set on one reference day whose seconds are zeroed, so an
    instant is modelled as a whole number of minutes from that day's
    midnight; `setHours(h); setMinutes(m)` gives h * 60 + m, and an hour
    outside 0..23 spills into a neighbouring day just as the `Date` object
    does. Inverted bounds are swapped. A cursor then walks from start to end:
    a rejected hour jumps to minute 0 of the next hour, a rejected minute
    steps by one, and an accepted minute is added to the tree. */
module TimeMode {
  import opened JsText
  import opened Cron
  import opened Tree

  /** The accepted shapes of `start` and `end`: a number (an hour), an array
      `[hour, minute]`, or an "HH:MM" text. */
  datatype TimeBound = AtHour(hour: int) | Clock(h: int, m: int) | Text(s: string)

  /** The texts the model reads: an "HH:MM" text whose hour and minute are
      written in decimal digits. A text without ':' leaves the minute
      undefined, which gives an invalid `Date`; other pieces that read as
      numbers (" 9", "+9", "9.5", "0x9", "1e1") are left out of the model. */
  predicate ReadableBound(b: TimeBound) {
    b.Text? ==> var ps := Split(b.s, ':'); |ps| >= 2 && IsDigits(ps[0]) && IsDigits(ps[1])
  }

  /** The `[hour, minute]` array a bound is turned into: a number means
      minute 0 at the start and minute 59 at the end; a text is split on ':'. */
  function HourMinute(b: TimeBound, isEnd: bool): (int, int)
    requires ReadableBound(b)
  {
    match b
    case AtHour(h) => (h, if isEnd then 59 else 0)
    case Clock(h, m) => (h, m)
    case Text(s) =>
      var ps := Split(s, ':');
      (DecimalValue(ps[0]), DecimalValue(ps[1]))
  }

  /** `setHours(h); setMinutes(m)` on the reference day, in minutes. */
  function Instant(hm: (int, int)): int {
    hm.0 * 60 + hm.1
  }

  /** The normalised bounds: both instants, swapped when start is after end. */
  function Bounds(start: TimeBound, end: TimeBound): (r: (int, int))
    requires ReadableBound(start) && ReadableBound(end)
    ensures r.0 <= r.1
    ensures var s, e := Instant(HourMinute(start, false)), Instant(HourMinute(end, true));
      (r == (s, e) || r == (e, s))
  {
    var s, e := Instant(HourMinute(start, false)), Instant(HourMinute(end, true));
    if s > e then (e, s) else (s, e)
  }

  /** `getHours()` of the cursor. */
  function HourOf(t: int): int {
    (t / 60) % 24
  }

  /** `getMinutes()` of the cursor. */
  function MinuteOf(t: int): int {
    t % 60
  }

  /** Setting hour h and minute m of the reference day reads back as h and
      m when both are within a day. */
  lemma ClockReading(h: int, m: int)
    requires 0 <= h <= 23 && 0 <= m <= 59
    ensures HourOf(h * 60 + m) == h && MinuteOf(h * 60 + m) == m
  {
    assert (h * 60 + m) / 60 == h;
  }

  /** The cursor passes both filters. */
  predicate Accepted(t: int, minutes: seq<int>, hours: seq<int>) {
    HourOf(t) in hours && MinuteOf(t) in minutes
  }

  /** The (hour, minute) path of the cursor in the tree. */
  function TimePath(t: int): seq<int> {
    [HourOf(t), MinuteOf(t)]
  }

  /** The paths of the accepted instants from t to hi, in order. */
  function AcceptedPaths(t: int, hi: int, minutes: seq<int>, hours: seq<int>): (ps: seq<seq<int>>)
    ensures PathsOfDepth(ps, 2)
    decreases hi - t
  {
    if t > hi then []
    else (if Accepted(t, minutes, hours) then [TimePath(t)] else []) + AcceptedPaths(t + 1, hi, minutes, hours)
  }

  /** The levels of the time tree; minute nodes have no `children`. */
  const TimeUnits: seq<Unit> := [Hour, Minute]

  /** The tree timePicker hands to the picker for bounds lo..hi. */
  function TimeTree(lo: int, hi: int, minutes: seq<int>, hours: seq<int>): seq<Node> {
    InsertAll([], AcceptedPaths(lo, hi, minutes, hours), TimeUnits, None)
  }

  // ---------------------------------------------------------------------
  // The enumeration loop

  /** Every minute left in a rejected hour is rejected too, so jumping to the
      next hour skips nothing that would have been added. */
  lemma {:induction false} SkipHour(t: int, hi: int, minutes: seq<int>, hours: seq<int>)
    requires HourOf(t) !in hours
    ensures AcceptedPaths(t, hi, minutes, hours) == AcceptedPaths(t - MinuteOf(t) + 60, hi, minutes, hours)
    decreases 60 - MinuteOf(t)
  {
    var next := t - MinuteOf(t) + 60;
    MinuteRange(t);
    if t <= hi {
      assert !Accepted(t, minutes, hours);
      assert AcceptedPaths(t, hi, minutes, hours) == [] + AcceptedPaths(t + 1, hi, minutes, hours);
      if MinuteOf(t) < 59 {
        SameHour(t);
        SkipHour(t + 1, hi, minutes, hours);
      } else {
        assert next == t + 1;
      }
    } else {
      assert next > hi;
    }
  }

  /** The minute of the cursor is in 0..59. */
  lemma MinuteRange(t: int)
    ensures 0 <= MinuteOf(t) < 60
  {
  }

  /** One minute on, within the hour: same hour, next minute, and the same
      start of the hour. */
  lemma SameHour(t: int)
    requires MinuteOf(t) < 59
    ensures HourOf(t + 1) == HourOf(t) && MinuteOf(t + 1) == MinuteOf(t) + 1
  {
    var q, r := t / 60, t % 60;
    assert t + 1 == 60 * q + (r + 1) && 0 <= r + 1 < 60;
    assert (t + 1) / 60 == q;
  }

  /** The find-or-create block of the loop body: find or push the hour node,
      then find or push the minute node among its children. */
  method AddMinute(date: seq<Node>, hour: int, minute: int) returns (r: seq<Node>)
    ensures r == Insert(date, [hour, minute], TimeUnits, None)
  {
    var h: nat;
    r, h := FindOrPush(date, Node(Label(hour, Hour), hour, Some([])));
    var kids, _ := FindOrPush(Children(r[h]), Node(Label(minute, Minute), minute, None));
    InsertInnerLevel(Children(r[h]), minute, Minute, None, kids);
    InsertOuterLevel(date, [hour, minute], TimeUnits, None, r, h);
    assert [hour, minute][1..] == [minute] && TimeUnits[1..] == [Minute];
    r := r[h := r[h].(children := Some(kids))];
  }

  /** The do-while loop of timePicker, for normalised bounds. */
  method Enumerate(lo: int, hi: int, minutes: seq<int>, hours: seq<int>) returns (date: seq<Node>)
    requires lo <= hi
    ensures date == TimeTree(lo, hi, minutes, hours)
  {
    date := [];
    var start := lo;
    // The loop is a do-while in the source; as lo <= hi its first test passes.
    while start <= hi
      invariant InsertAll(date, AcceptedPaths(start, hi, minutes, hours), TimeUnits, None) == TimeTree(lo, hi, minutes, hours)
      decreases hi - start
    {
      date, start := Visit(date, start, hi, minutes, hours);
    }
  }

  /** One pass of the loop body: a rejected hour jumps to the next hour, a
      rejected minute steps by one, and an accepted minute is added to the
      tree before stepping. The cursor moves forward, and what is still to
      be added together with the tree so far gives the same final tree. */
  method Visit(date: seq<Node>, t: int, hi: int, minutes: seq<int>, hours: seq<int>) returns (date': seq<Node>, next: int)
    requires t <= hi
    ensures t < next
    ensures InsertAll(date', AcceptedPaths(next, hi, minutes, hours), TimeUnits, None)
         == InsertAll(date, AcceptedPaths(t, hi, minutes, hours), TimeUnits, None)
  {
    var hour, minute := HourOf(t), MinuteOf(t);
    ghost var goal := InsertAll(date, AcceptedPaths(t, hi, minutes, hours), TimeUnits, None);
    if hour !in hours {
      SkipHour(t, hi, minutes, hours);
      date', next := date, t - minute + 60;
    } else if minute !in minutes {
      MinuteStep(date, t, hi, minutes, hours, goal);
      date', next := date, t + 1;
    } else {
      MinuteStep(date, t, hi, minutes, hours, goal);
      date' := AddMinute(date, hour, minute);
      next := t + 1;
    }
  }

  /** One pass of the loop body that does not jump: an accepted minute is
      inserted, a rejected one is passed over, and what remains to insert
      shrinks to the minutes after it. */
  lemma MinuteStep(date: seq<Node>, t: int, hi: int, minutes: seq<int>, hours: seq<int>, goal: seq<Node>)
    requires t <= hi
    requires InsertAll(date, AcceptedPaths(t, hi, minutes, hours), TimeUnits, None) == goal
    ensures !Accepted(t, minutes, hours) ==>
      InsertAll(date, AcceptedPaths(t + 1, hi, minutes, hours), TimeUnits, None) == goal
    ensures Accepted(t, minutes, hours) ==>
      InsertAll(Insert(date, TimePath(t), TimeUnits, None), AcceptedPaths(t + 1, hi, minutes, hours), TimeUnits, None) == goal
  {
    var rest := AcceptedPaths(t + 1, hi, minutes, hours);
    if Accepted(t, minutes, hours) {
      assert AcceptedPaths(t, hi, minutes, hours) == [TimePath(t)] + rest;
      InsertAllCons(date, TimePath(t), rest, TimeUnits, None);
    } else {
      assert AcceptedPaths(t, hi, minutes, hours) == [] + rest;
      assert [] + rest == rest;
    }
  }

  /** timePicker(options) up to the hand-off to the picker: normalise the
      bounds, expand the filter against minute [0, 59] and hour [0, 23], and
      enumerate. */
  method TimePicker(start: TimeBound, end: TimeBound, cron: string) returns (date: seq<Node>)
    requires ReadableBound(start) && ReadableBound(end)
    requires WellFormedCron(cron, TimeConstraints) && |Split(cron, ' ')| >= 2
    ensures var b, c := Bounds(start, end), CronValues(cron, TimeConstraints);
      date == TimeTree(b.0, b.1, c[0], c[1])
    ensures WellFormed(date, TimeUnits, None)
    ensures 0 <= Bounds(start, end).0 && Bounds(start, end).1 < 1440 ==> Ascending(date, 2)
  {
    var b := Bounds(start, end);
    var cronArr := ParseCron(cron, TimeConstraints);
    date := Enumerate(b.0, b.1, cronArr[0], cronArr[1]);
    TimeTreeWellFormed(b.0, b.1, cronArr[0], cronArr[1]);
    if 0 <= b.0 && b.1 < 1440 {
      TimeTreeAscending(b.0, b.1, cronArr[0], cronArr[1]);
    }
  }

  // ---------------------------------------------------------------------
  // What the tree holds

  /** The accepted paths are exactly those of the accepted instants in range. */
  lemma {:induction false} AcceptedPathsMembers(t: int, hi: int, minutes: seq<int>, hours: seq<int>, q: seq<int>)
    ensures q in AcceptedPaths(t, hi, minutes, hours) <==>
      exists u :: t <= u <= hi && Accepted(u, minutes, hours) && q == TimePath(u)
    decreases hi - t
  {
    if t <= hi {
      var here := if Accepted(t, minutes, hours) then [TimePath(t)] else [];
      var rest := AcceptedPaths(t + 1, hi, minutes, hours);
      assert AcceptedPaths(t, hi, minutes, hours) == here + rest;
      assert q in here + rest <==> q in here || q in rest;
      AcceptedPathsMembers(t + 1, hi, minutes, hours, q);
      if q in here {
        assert t <= t <= hi && Accepted(t, minutes, hours) && q == TimePath(t);
      } else if exists u :: t <= u <= hi && Accepted(u, minutes, hours) && q == TimePath(u) {
        var u :| t <= u <= hi && Accepted(u, minutes, hours) && q == TimePath(u);
        assert u != t;
        assert t + 1 <= u <= hi;
      }
    }
  }

  /** Every node has its value's label, minute nodes have no `children`
      field, and values are unique within the root and within every hour. */
  lemma TimeTreeWellFormed(lo: int, hi: int, minutes: seq<int>, hours: seq<int>)
    ensures WellFormed(TimeTree(lo, hi, minutes, hours), TimeUnits, None)
  {
    InsertAllWellFormed([], AcceptedPaths(lo, hi, minutes, hours), TimeUnits, None);
  }

  /** Soundness and completeness: the tree has the minute node (h, m) exactly
      when some instant between the bounds has hour h and minute m and both
      pass the filter. With unique values per level, it has it once. */
  lemma TimeTreeHolds(lo: int, hi: int, minutes: seq<int>, hours: seq<int>, h: int, m: int)
    ensures HasPath(TimeTree(lo, hi, minutes, hours), [h, m]) <==>
      h in hours && m in minutes && exists t :: lo <= t <= hi && HourOf(t) == h && MinuteOf(t) == m
  {
    InsertAllPaths([], AcceptedPaths(lo, hi, minutes, hours), TimeUnits, None, [h, m]);
    AcceptedPathsMembers(lo, hi, minutes, hours, [h, m]);
    if h in hours && m in minutes && exists t :: lo <= t <= hi && HourOf(t) == h && MinuteOf(t) == m {
      var t :| lo <= t <= hi && HourOf(t) == h && MinuteOf(t) == m;
      assert Accepted(t, minutes, hours) && [h, m] == TimePath(t);
    }
  }

  /** Within one day the path of a later instant comes later. */
  lemma TimePathOrder(t: int, u: int)
    requires 0 <= t < u < 1440
    ensures LexLess(TimePath(t), TimePath(u))
  {
    assert HourOf(t) == t / 60 && HourOf(u) == u / 60;
    if t / 60 == u / 60 {
      assert MinuteOf(t) < MinuteOf(u);
      assert TimePath(t)[1..] == [MinuteOf(t)] && TimePath(u)[1..] == [MinuteOf(u)];
    }
  }

  lemma {:induction false} AcceptedPathsIncreasing(t: int, hi: int, minutes: seq<int>, hours: seq<int>)
    requires 0 <= t && hi < 1440
    ensures Increasing(AcceptedPaths(t, hi, minutes, hours))
    decreases hi - t
  {
    if t <= hi {
      AcceptedPathsIncreasing(t + 1, hi, minutes, hours);
      var rest := AcceptedPaths(t + 1, hi, minutes, hours);
      assert Increasing(rest);
      if Accepted(t, minutes, hours) {
        forall j | 0 <= j < |rest| ensures LexLess(TimePath(t), rest[j]) {
          AcceptedPathsMembers(t + 1, hi, minutes, hours, rest[j]);
          var u :| t + 1 <= u <= hi && Accepted(u, minutes, hours) && rest[j] == TimePath(u);
          TimePathOrder(t, u);
        }
        ConsIncreasing(TimePath(t), rest);
        assert AcceptedPaths(t, hi, minutes, hours) == [TimePath(t)] + rest;
      }
    }
  }

  /** When both bounds lie on the reference day (no hour spills over
      midnight), the hours ascend and the minutes of every hour ascend. */
  lemma TimeTreeAscending(lo: int, hi: int, minutes: seq<int>, hours: seq<int>)
    requires 0 <= lo && hi < 1440
    ensures Ascending(TimeTree(lo, hi, minutes, hours), 2)
  {
    AcceptedPathsIncreasing(lo, hi, minutes, hours);
    InsertAllAscending([], AcceptedPaths(lo, hi, minutes, hours), TimeUnits, None);
  }

  /** One more instant at the end of the range appends its path when it is
      accepted. */
  lemma {:induction false} AcceptedPathsSnoc(lo: int, hi: int, minutes: seq<int>, hours: seq<int>)
    requires lo <= hi + 1
    ensures AcceptedPaths(lo, hi + 1, minutes, hours) ==
      AcceptedPaths(lo, hi, minutes, hours) + (if Accepted(hi + 1, minutes, hours) then [TimePath(hi + 1)] else [])
    decreases hi + 1 - lo
  {
    if lo <= hi {
      AcceptedPathsSnoc(lo + 1, hi, minutes, hours);
      var head: seq<seq<int>> := if Accepted(lo, minutes, hours) then [TimePath(lo)] else [];
      var tail: seq<seq<int>> := if Accepted(hi + 1, minutes, hours) then [TimePath(hi + 1)] else [];
      assert head + (AcceptedPaths(lo + 1, hi, minutes, hours) + tail) ==
        (head + AcceptedPaths(lo + 1, hi, minutes, hours)) + tail;
    }
  }

  /** Extending the range by one minute adds that minute to the tree when
      it passes the filter, and changes nothing otherwise. */
  lemma TimeTreeStep(lo: int, hi: int, minutes: seq<int>, hours: seq<int>)
    requires lo <= hi + 1
    ensures TimeTree(lo, hi + 1, minutes, hours) ==
      if Accepted(hi + 1, minutes, hours) then Insert(TimeTree(lo, hi, minutes, hours), TimePath(hi + 1), TimeUnits, None)
      else TimeTree(lo, hi, minutes, hours)
  {
    AcceptedPathsSnoc(lo, hi, minutes, hours);
    var ps := AcceptedPaths(lo, hi, minutes, hours);
    if Accepted(hi + 1, minutes, hours) {
      InsertAllSnoc([], ps, TimePath(hi + 1), TimeUnits, None);
    } else {
      assert ps + [] == ps;
    }
  }

  /** The default filter "* *" accepts every minute 0..59 and every hour
      0..23, and the default bounds 00:00 and 23:59 span the whole day. */
  lemma DefaultOptions()
    ensures WellFormedCron("* *", TimeConstraints) && |Split("* *", ' ')| == 2
    ensures forall n :: 0 <= n < 2 ==>
      CronValues("* *", TimeConstraints)[n] == Interval(TimeConstraints[n].0, TimeConstraints[n].1)
    ensures Bounds(Clock(0, 0), Clock(23, 59)) == (0, 1439)
  {
    assert "* *" == "*" + [' '] + "*";
    SplitCons("*", "*", ' ');
    SplitPlain("*", ' ');
    AllStars("* *", TimeConstraints);
  }

  /** Swapped clock bounds give the same range, hence the same tree. */
  lemma SwappedBounds(h1: int, m1: int, h2: int, m2: int)
    ensures Bounds(Clock(h1, m1), Clock(h2, m2)) == Bounds(Clock(h2, m2), Clock(h1, m1))
  {
  }
}

=== FILE: tree.dfy ===
/** The picker's option tree and the find-or-create step both enumerators
    use to grow it.

    A node is `{label, value, children}`; on the innermost level of the time
    tree the `children` field is absent, modelled as `None`. Both enumerators
    add one accepted unit at a time as a path of values from the root
    (hour, minute) or (year, month, day): at each level `findBy` looks for a
    node with that value and, when there is none, a new node is pushed at the
    end. Nodes are values here: pushing into the `children` of a node found
    in its parent's array is modelled by replacing that node in the parent. */
module Tree {

  datatype Option<T> = None | Some(value: T)

  /** The unit whose suffix the label carries. */
  datatype Unit = Year | Month | Day | Hour | Minute

  /** A label such as "9日" is the number 9 followed by the suffix of Day. */
  datatype Label = Label(number: int, unit: Unit)

  /** `{label, value, children}`; `label` is a reserved word in Dafny. */
  datatype Node = Node(caption: Label, value: int, children: Option<seq<Node>>)

  /** The children of a node; an absent field reads as none. */
  function Children(n: Node): seq<Node> {
    if n.children.Some? then n.children.value else []
  }

  /** The position of the first node whose value is `v`, if any. */
  function Find(nodes: seq<Node>, v: int): (r: Option<nat>)
    ensures r.Some? ==> (r.value < |nodes| && nodes[r.value].value == v &&
      forall j :: 0 <= j < r.value ==> nodes[j].value != v)
    ensures r.None? ==> forall j :: 0 <= j < |nodes| ==> nodes[j].value != v
    decreases |nodes|
  {
    if nodes == [] then None
    else if nodes[0].value == v then Some(0)
    else match Find(nodes[1..], v)
      case None => None
      case Some(i) => Some(i + 1)
  }

  /** findBy on the key 'value': a linear scan that stops at the first
      node with that value (the key is always 'value'). The model returns its
      position rather than the node itself, so that the caller can push into
      it. */
  method FindBy(nodes: seq<Node>, value: int) returns (r: Option<nat>)
    ensures r == Find(nodes, value)
  {
    var i := 0;
    while i < |nodes|
      invariant i <= |nodes|
      invariant forall j :: 0 <= j < i ==> nodes[j].value != value
    {
      if nodes[i].value == value {
        return Some(i);
      }
      i := i + 1;
    }
    return None;
  }

  /** One level of find-or-create: look the value of `created` up with
      `findBy` and, when no node has it, push `created`. Returns the array and
      the position of the node with that value. */
  method FindOrPush(nodes: seq<Node>, created: Node) returns (r: seq<Node>, i: nat)
    ensures i < |r| && r[i].value == created.value
    ensures Find(nodes, created.value).Some? ==> r == nodes && i == Find(nodes, created.value).value
    ensures Find(nodes, created.value).None? ==> r == nodes + [created] && i == |nodes|
  {
    var found := FindBy(nodes, created.value);
    if found.None? {
      r, i := nodes + [created], |nodes|;
    } else {
      r, i := nodes, found.value;
    }
  }

  // ---------------------------------------------------------------------
  // Find-or-create along a path

  /** The chain of created nodes created for `path` below a level where its
      first value was not found: each new node gets the next one as its only
      child, and the innermost one gets `leaf` as its `children` field. */
  function Chain(path: seq<int>, units: seq<Unit>, leaf: Option<seq<Node>>): Node
    requires |path| == |units| >= 1
    decreases |path|
  {
    Node(Label(path[0], units[0]), path[0],
      if |path| == 1 then leaf else Some([Chain(path[1..], units[1..], leaf)]))
  }

  /** One accepted unit added to the tree: find or create a node for each
      value of `path`, outermost first. */
  function Insert(nodes: seq<Node>, path: seq<int>, units: seq<Unit>, leaf: Option<seq<Node>>): seq<Node>
    requires |path| == |units| >= 1
    decreases |path|
  {
    match Find(nodes, path[0])
    case None => nodes + [Chain(path, units, leaf)]
    case Some(i) =>
      if |path| == 1 then nodes
      else nodes[i := nodes[i].(children := Some(Insert(Children(nodes[i]), path[1..], units[1..], leaf)))]
  }

  /** Find-or-create at an outer level, as the enumerators do it: after
      `FindOrPush` with a created node whose `children` is empty, inserting the
      rest of the path below position `i` and writing that node back gives
      the same tree as `Insert`. */
  lemma InsertOuterLevel(nodes: seq<Node>, p: seq<int>, units: seq<Unit>, leaf: Option<seq<Node>>, r: seq<Node>, i: nat)
    requires |p| == |units| >= 2
    requires Find(nodes, p[0]).Some? ==> r == nodes && i == Find(nodes, p[0]).value
    requires Find(nodes, p[0]).None? ==> r == nodes + [Node(Label(p[0], units[0]), p[0], Some([]))] && i == |nodes|
    ensures i < |r|
    ensures Insert(nodes, p, units, leaf) ==
      r[i := r[i].(children := Some(Insert(Children(r[i]), p[1..], units[1..], leaf)))]
  {
    if Find(nodes, p[0]).None? {
      var inner := Insert([], p[1..], units[1..], leaf);
      assert inner == [Chain(p[1..], units[1..], leaf)];
      assert r[i := r[i].(children := Some(inner))] == nodes + [Chain(p, units, leaf)];
    }
  }

  /** Find-or-create at the innermost level: `FindOrPush` with the created
      innermost node is `Insert` of a one-value path. */
  lemma InsertInnerLevel(nodes: seq<Node>, v: int, u: Unit, leaf: Option<seq<Node>>, r: seq<Node>)
    requires Find(nodes, v).Some? ==> r == nodes
    requires Find(nodes, v).None? ==> r == nodes + [Node(Label(v, u), v, leaf)]
    ensures Insert(nodes, [v], [u], leaf) == r
  {
    assert Chain([v], [u], leaf) == Node(Label(v, u), v, leaf);
  }

  /** Every path has the tree's depth. */
  predicate PathsOfDepth(paths: seq<seq<int>>, depth: nat) {
    forall k :: 0 <= k < |paths| ==> |paths[k]| == depth
  }

  /** The tree after adding the given units in order. */
  function InsertAll(nodes: seq<Node>, paths: seq<seq<int>>, units: seq<Unit>, leaf: Option<seq<Node>>): seq<Node>
    requires |units| >= 1 && PathsOfDepth(paths, |units|)
    decreases |paths|
  {
    if paths == [] then nodes
    else InsertAll(Insert(nodes, paths[0], units, leaf), paths[1..], units, leaf)
  }

  // ---------------------------------------------------------------------
  // What a tree holds

  /** The tree has a node for every value of `p`, each below the previous. */
  predicate HasPath(nodes: seq<Node>, p: seq<int>)
    decreases |p|
  {
    |p| >= 1 &&
    exists i :: 0 <= i < |nodes| && nodes[i].value == p[0] &&
      (|p| == 1 || HasPath(Children(nodes[i]), p[1..]))
  }

  /** Within every `children` array (and the root) values are unique; every
      label carries its value and its level's unit; every non-innermost node
      has at least one child; every innermost node has `leaf` as its
      `children` field. */
  predicate WellFormed(nodes: seq<Node>, units: seq<Unit>, leaf: Option<seq<Node>>)
    requires |units| >= 1
    decreases |units|
  {
    (forall i, j :: 0 <= i < j < |nodes| ==> nodes[i].value != nodes[j].value) &&
    forall i :: 0 <= i < |nodes| ==>
      nodes[i].caption == Label(nodes[i].value, units[0]) &&
      (|units| == 1 ==> nodes[i].children == leaf) &&
      (|units| > 1 ==>
         nodes[i].children.Some? && nodes[i].children.value != [] &&
         WellFormed(nodes[i].children.value, units[1..], leaf))
  }

  /** Within every `children` array (and the root) values strictly ascend. */
  predicate Ascending(nodes: seq<Node>, depth: nat)
    decreases depth
  {
    (forall i, j :: 0 <= i < j < |nodes| ==> nodes[i].value < nodes[j].value) &&
    (depth > 1 ==> forall i :: 0 <= i < |nodes| ==> Ascending(Children(nodes[i]), depth - 1))
  }

  /** Lexicographic order on paths of equal length. */
  predicate LexLess(a: seq<int>, b: seq<int>)
    decreases |a|
  {
    |a| >= 1 && |b| >= 1 &&
    (a[0] < b[0] || (a[0] == b[0] && LexLess(a[1..], b[1..])))
  }

  /** The paths come in strictly increasing lexicographic order. */
  predicate Increasing(ps: seq<seq<int>>) {
    forall i, j :: 0 <= i < j < |ps| ==> LexLess(ps[i], ps[j])
  }

  /** A path below every path of an increasing sequence can go in front. */
  lemma ConsIncreasing(p: seq<int>, rest: seq<seq<int>>)
    requires Increasing(rest)
    requires forall j :: 0 <= j < |rest| ==> LexLess(p, rest[j])
    ensures Increasing([p] + rest)
  {
    var ps := [p] + rest;
    forall i, j | 0 <= i < j < |ps| ensures LexLess(ps[i], ps[j]) {
      assert ps[j] == rest[j - 1];
      if i > 0 {
        assert ps[i] == rest[i - 1];
      }
    }
  }

  // ---------------------------------------------------------------------
  // Lemmas

  lemma {:induction false} ChainPaths(p: seq<int>, units: seq<Unit>, leaf: Option<seq<Node>>, q: seq<int>)
    requires |p| == |units| >= 1 && |q| == |p|
    ensures HasPath([Chain(p, units, leaf)], q) <==> q == p
    decreases |p|
  {
    var c := Chain(p, units, leaf);
    if |p| > 1 {
      ChainPaths(p[1..], units[1..], leaf, q[1..]);
      assert Children(c) == [Chain(p[1..], units[1..], leaf)];
      if q == p {
        assert HasPath(Children(c), q[1..]);
        assert [c][0] == c;
      }
      if HasPath([c], q) {
        assert q[0] == p[0] && q[1..] == p[1..];
        assert q == [q[0]] + q[1..] && p == [p[0]] + p[1..];
      }
    } else if q[0] == p[0] {
      assert [c][0].value == q[0];
      assert q == [q[0]] && p == [p[0]];
    }
  }

  lemma {:induction false} ChainWellFormed(p: seq<int>, units: seq<Unit>, leaf: Option<seq<Node>>)
    requires |p| == |units| >= 1
    ensures WellFormed([Chain(p, units, leaf)], units, leaf)
    ensures Ascending([Chain(p, units, leaf)], |units|)
    decreases |p|
  {
    if |p| > 1 {
      ChainWellFormed(p[1..], units[1..], leaf);
    }
  }

  /** Adding a unit adds exactly its path and no other. */
  lemma {:induction false} InsertPaths(nodes: seq<Node>, p: seq<int>, units: seq<Unit>, leaf: Option<seq<Node>>, q: seq<int>)
    requires |p| == |units| >= 1 && |q| == |p|
    ensures HasPath(Insert(nodes, p, units, leaf), q) <==> HasPath(nodes, q) || q == p
    decreases |p|
  {
    var r := Insert(nodes, p, units, leaf);
    match Find(nodes, p[0])
    case None =>
      ChainPaths(p, units, leaf, q);
      var c := Chain(p, units, leaf);
      assert r == nodes + [c];
      if HasPath(r, q) {
        var i :| 0 <= i < |r| && r[i].value == q[0] && (|q| == 1 || HasPath(Children(r[i]), q[1..]));
        if i == |nodes| {
          assert HasPath([c], q) by { assert [c][0] == r[i]; }
        } else {
          assert nodes[i] == r[i];
        }
      }
      if HasPath(nodes, q) {
        var i :| 0 <= i < |nodes| && nodes[i].value == q[0] && (|q| == 1 || HasPath(Children(nodes[i]), q[1..]));
        assert r[i] == nodes[i];
      }
      if q == p {
        assert HasPath([c], q);
        assert r[|nodes|] == c;
        assert |q| == 1 || HasPath(Children(r[|nodes|]), q[1..]);
      }
    case Some(i) =>
      if |p| == 1 {
        if q == p {
          assert nodes[i].value == q[0];
        }
      } else {
        var kids := Children(nodes[i]);
        InsertPaths(kids, p[1..], units[1..], leaf, q[1..]);
        assert Children(r[i]) == Insert(kids, p[1..], units[1..], leaf);
        if HasPath(r, q) {
          var j :| 0 <= j < |r| && r[j].value == q[0] && (|q| == 1 || HasPath(Children(r[j]), q[1..]));
          if j == i {
            if HasPath(kids, q[1..]) {
              assert HasPath(nodes, q);
            } else {
              assert q[0] == p[0] && q[1..] == p[1..];
              assert q == [q[0]] + q[1..] && p == [p[0]] + p[1..];
            }
          } else {
            assert r[j] == nodes[j];
          }
        }
        if HasPath(nodes, q) {
          var j :| 0 <= j < |nodes| && nodes[j].value == q[0] && (|q| == 1 || HasPath(Children(nodes[j]), q[1..]));
          if j != i {
            assert r[j] == nodes[j];
          }
          assert r[j].value == q[0];
        }
        if q == p {
          assert r[i].value == q[0];
        }
      }
  }

  /** Adding a unit keeps the tree well formed. */
  lemma {:induction false} InsertWellFormed(nodes: seq<Node>, p: seq<int>, units: seq<Unit>, leaf: Option<seq<Node>>)
    requires |p| == |units| >= 1
    requires WellFormed(nodes, units, leaf)
    ensures WellFormed(Insert(nodes, p, units, leaf), units, leaf)
    decreases |p|
  {
    ChainWellFormed(p, units, leaf);
    match Find(nodes, p[0])
    case None =>
    case Some(i) =>
      if |p| > 1 {
        InsertWellFormed(Children(nodes[i]), p[1..], units[1..], leaf);
        var kids := Insert(Children(nodes[i]), p[1..], units[1..], leaf);
        assert kids != [] by {
          InsertPaths(Children(nodes[i]), p[1..], units[1..], leaf, p[1..]);
        }
      }
  }

  /** A well-formed node reaches the innermost level along some path. */
  lemma {:induction false} NodeHasPath(nodes: seq<Node>, i: nat, units: seq<Unit>, leaf: Option<seq<Node>>)
    returns (q: seq<int>)
    requires |units| >= 1 && i < |nodes| && WellFormed(nodes, units, leaf)
    ensures |q| == |units| && q[0] == nodes[i].value && HasPath(nodes, q)
    decreases |units|
  {
    if |units| == 1 {
      q := [nodes[i].value];
    } else {
      var kids := nodes[i].children.value;
      var q' := NodeHasPath(kids, 0, units[1..], leaf);
      q := [nodes[i].value] + q';
      assert q[1..] == q';
    }
  }

  /** Adding a unit that comes after every unit already in the tree keeps
      every level in ascending order. */
  lemma {:induction false} InsertAscending(nodes: seq<Node>, p: seq<int>, units: seq<Unit>, leaf: Option<seq<Node>>)
    requires |p| == |units| >= 1
    requires WellFormed(nodes, units, leaf) && Ascending(nodes, |units|)
    requires forall q :: |q| == |units| && HasPath(nodes, q) ==> LexLess(q, p)
    ensures Ascending(Insert(nodes, p, units, leaf), |units|)
    decreases |p|
  {
    match Find(nodes, p[0])
    case None =>
      AppendAscending(nodes, p, units, leaf);
    case Some(i) =>
      if |p| > 1 {
        var kids := Children(nodes[i]);
        DescendAscending(nodes, i, p, units, leaf);
        InsertAscending(kids, p[1..], units[1..], leaf);
        InsertBelowAscending(nodes, i, p, units, leaf);
      }
  }

  /** Going down to the node for p[0]: its children are well formed and
      ascending one level down, every path among them is below the rest of
      p, and inserting p is inserting the rest of p among them. */
  lemma DescendAscending(nodes: seq<Node>, i: nat, p: seq<int>, units: seq<Unit>, leaf: Option<seq<Node>>)
    requires |p| == |units| > 1 && Find(nodes, p[0]) == Some(i)
    requires WellFormed(nodes, units, leaf) && Ascending(nodes, |units|)
    requires forall q :: |q| == |units| && HasPath(nodes, q) ==> LexLess(q, p)
    ensures i < |nodes|
    ensures WellFormed(Children(nodes[i]), units[1..], leaf) && Ascending(Children(nodes[i]), |units[1..]|)
    ensures forall q' :: |q'| == |units[1..]| && HasPath(Children(nodes[i]), q') ==> LexLess(q', p[1..])
  {
    BelowInChildren(nodes, i, p, |units|);
  }

  /** Coming back up: once the rest of p is inserted among the children of
      the node for p[0] and they stay ascending, the whole level does. */
  lemma InsertBelowAscending(nodes: seq<Node>, i: nat, p: seq<int>, units: seq<Unit>, leaf: Option<seq<Node>>)
    requires |p| == |units| > 1 && Find(nodes, p[0]) == Some(i) && i < |nodes|
    requires Ascending(nodes, |units|)
    requires Ascending(Insert(Children(nodes[i]), p[1..], units[1..], leaf), |units[1..]|)
    ensures Ascending(Insert(nodes, p, units, leaf), |units|)
  {
    var kids := Insert(Children(nodes[i]), p[1..], units[1..], leaf);
    ReplaceAscending(nodes, i, kids, |units|);
    assert Insert(nodes, p, units, leaf) == nodes[i := nodes[i].(children := Some(kids))];
  }

  /** If every path of the tree is below p, every path under the node for
      p[0] is below the rest of p. */
  lemma BelowInChildren(nodes: seq<Node>, i: nat, p: seq<int>, depth: nat)
    requires |p| == depth > 1 && i < |nodes| && nodes[i].value == p[0]
    requires forall q :: |q| == depth && HasPath(nodes, q) ==> LexLess(q, p)
    ensures forall q' :: |q'| == depth - 1 && HasPath(Children(nodes[i]), q') ==> LexLess(q', p[1..])
  {
    forall q' | |q'| == depth - 1 && HasPath(Children(nodes[i]), q') ensures LexLess(q', p[1..]) {
      var q := [p[0]] + q';
      assert q[1..] == q';
      assert HasPath(nodes, q);
      assert LexLess(q, p);
    }
  }

  /** A new value greater than every value present goes at the end. */
  lemma AppendAscending(nodes: seq<Node>, p: seq<int>, units: seq<Unit>, leaf: Option<seq<Node>>)
    requires |p| == |units| >= 1
    requires WellFormed(nodes, units, leaf) && Ascending(nodes, |units|)
    requires forall q :: |q| == |units| && HasPath(nodes, q) ==> LexLess(q, p)
    requires Find(nodes, p[0]).None?
    ensures Ascending(Insert(nodes, p, units, leaf), |units|)
  {
    assert Insert(nodes, p, units, leaf) == nodes + [Chain(p, units, leaf)];
    ChainWellFormed(p, units, leaf);
    var c := Chain(p, units, leaf);
    forall k | 0 <= k < |nodes| ensures nodes[k].value < p[0] {
      var q := NodeHasPath(nodes, k, units, leaf);
      assert LexLess(q, p);
    }
    var r := nodes + [c];
    assert r[|nodes|] == c && c.value == p[0];
    assert |units| > 1 ==> Ascending(Children(c), |units| - 1);
    forall k | 0 <= k < |nodes| ensures r[k] == nodes[k] { }
  }

  /** Replacing the children of one node by ascending ones keeps the level
      ascending. */
  lemma ReplaceAscending(nodes: seq<Node>, i: nat, kids: seq<Node>, depth: nat)
    requires i < |nodes| && depth > 1 && Ascending(nodes, depth) && Ascending(kids, depth - 1)
    ensures Ascending(nodes[i := nodes[i].(children := Some(kids))], depth)
  {
    var r := nodes[i := nodes[i].(children := Some(kids))];
    forall k | 0 <= k < |r| ensures Ascending(Children(r[k]), depth - 1) {
      if k != i { assert r[k] == nodes[k]; }
    }
  }

  /** Adding units in order adds exactly their paths. */
  lemma {:induction false} InsertAllPaths(nodes: seq<Node>, ps: seq<seq<int>>, units: seq<Unit>, leaf: Option<seq<Node>>, q: seq<int>)
    requires |units| >= 1 && PathsOfDepth(ps, |units|) && |q| == |units|
    ensures HasPath(InsertAll(nodes, ps, units, leaf), q) <==> HasPath(nodes, q) || q in ps
    decreases |ps|
  {
    if ps != [] {
      InsertPaths(nodes, ps[0], units, leaf, q);
      InsertAllPaths(Insert(nodes, ps[0], units, leaf), ps[1..], units, leaf, q);
      assert ps == [ps[0]] + ps[1..];
    }
  }

  /** Adding units keeps the tree well formed. */
  lemma {:induction false} InsertAllWellFormed(nodes: seq<Node>, ps: seq<seq<int>>, units: seq<Unit>, leaf: Option<seq<Node>>)
    requires |units| >= 1 && PathsOfDepth(ps, |units|)
    requires WellFormed(nodes, units, leaf)
    ensures WellFormed(InsertAll(nodes, ps, units, leaf), units, leaf)
    decreases |ps|
  {
    if ps != [] {
      InsertWellFormed(nodes, ps[0], units, leaf);
      InsertAllWellFormed(Insert(nodes, ps[0], units, leaf), ps[1..], units, leaf);
    }
  }

  /** Paths in strictly increasing order, each after everything already in
      the tree, keep every level ascending. */
  lemma {:induction false} InsertAllAscending(nodes: seq<Node>, ps: seq<seq<int>>, units: seq<Unit>, leaf: Option<seq<Node>>)
    requires |units| >= 1 && PathsOfDepth(ps, |units|)
    requires WellFormed(nodes, units, leaf) && Ascending(nodes, |units|)
    requires Increasing(ps)
    requires forall q, k :: |q| == |units| && HasPath(nodes, q) && 0 <= k < |ps| ==> LexLess(q, ps[k])
    ensures Ascending(InsertAll(nodes, ps, units, leaf), |units|)
    decreases |ps|
  {
    if ps != [] {
      InsertAscending(nodes, ps[0], units, leaf);
      InsertWellFormed(nodes, ps[0], units, leaf);
      var next := Insert(nodes, ps[0], units, leaf);
      forall q, k | |q| == |units| && HasPath(next, q) && 0 <= k < |ps[1..]| ensures LexLess(q, ps[1..][k]) {
        InsertPaths(nodes, ps[0], units, leaf, q);
      }
      InsertAllAscending(next, ps[1..], units, leaf);
    }
  }

  /** Inserting a first path and then the rest is inserting them all. */
  lemma InsertAllCons(nodes: seq<Node>, p: seq<int>, ps: seq<seq<int>>, units: seq<Unit>, leaf: Option<seq<Node>>)
    requires |units| >= 1 && |p| == |units| && PathsOfDepth(ps, |units|)
    ensures PathsOfDepth([p] + ps, |units|)
    ensures InsertAll(nodes, [p] + ps, units, leaf) == InsertAll(Insert(nodes, p, units, leaf), ps, units, leaf)
  {
    assert ([p] + ps)[0] == p && ([p] + ps)[1..] == ps;
  }

  /** Adding one more path after a run of paths is one more `Insert`. */
  lemma {:induction false} InsertAllSnoc(nodes: seq<Node>, ps: seq<seq<int>>, p: seq<int>, units: seq<Unit>, leaf: Option<seq<Node>>)
    requires |units| >= 1 && PathsOfDepth(ps, |units|) && |p| == |units|
    ensures PathsOfDepth(ps + [p], |units|)
    ensures InsertAll(nodes, ps + [p], units, leaf) == Insert(InsertAll(nodes, ps, units, leaf), p, units, leaf)
    decreases |ps|
  {
    assert PathsOfDepth(ps + [p], |units|);
    if ps == [] {
      assert [p][1..] == [];
    } else {
      assert (ps + [p])[1..] == ps[1..] + [p];
      InsertAllSnoc(Insert(nodes, ps[0], units, leaf), ps[1..], p, units, leaf);
    }
  }
}
